=== FILE: README.md ===
# Flip-Cards game logic in Dafny

This project models the logic of the Flip-Cards memory game (`js/game.js`) as
pure Dafny functions, with the page and the browser left out. Players take turns
turning over two cards. A pair of equal symbols scores a point for the player
whose turn it is, and the player keeps the turn. A mismatch turns both cards
back and passes the turn. When every pair has been found, the players with the
highest score win.

The modules follow the parts of the script:

- `Shuffle` (`shuffle.dfy`): `shuffleArray`, the Fisher–Yates shuffle. `Math.random` is replaced by an oracle sequence of draws `draws[i] ∈ [0, i]`, and every property holds for every oracle.
- `Deck` (`deck.dfy`): from difficulty to pair count, the 42-symbol `IMAGES` list, choosing `pairsCount` symbols, and dealing the doubled, shuffled deck.
- `Board` (`board.dfy`): `onCardClick` and its three `setTimeout` continuations, as a transition function `Step(game, event)`.
  - Card CSS classes become a `CardState`.
  - Each pending timer matches one state configuration, and the timer fires as an event (`MatchReveal`, `MatchVacate`, `NoMatchResolve`).
  - Events may arrive in any order.
  - Effects on the page (scoreboard, turn announcement, win screen) are returned as `Effect` values.
- `Winner` (`winner.dfy`): the winner list and the sole-win/tie decision of `showWinner`.
- `Text` (`text.dfy`): `toTitleCase` over ASCII text.
- `Names` (`names.dfy`): the OK handler of the name prompt and the name lookup the displays share.
  - Blank entries default to `Player i+1`.
  - Duplicates are detected case-insensitively.
  - `hashString` uses the signed 32-bit arithmetic of JavaScript.
  - Avatar colours come from a probe over the 10-colour palette.
- `Round` (`round.dfy`): `startGame`.
  - Reads the player count (`parseInt(...) || 2`).
  - Prompts for names until there is one per player, then deals the round.
- `Seqs` (`seqs.dfy`): shared vocabulary (distinctness, counting, sums).

The state that the script keeps in globals (`window._playerNames`, `_playerColors`) and in the closure of `startGame` is passed in and returned explicitly.

## Model

| member | source | states |
|---|---|---|
| Shuffle.Shuffled | js/game.js:4-11 | the shuffled copy has the input's length and exactly its elements with their multiplicities, for every oracle |
| Shuffle.ShuffleArray | js/game.js:4-11 | the loop from the last index down to 1 returns a permutation of its argument, and the caller's sequence is a value, so it is unchanged |
| Shuffle.ShuffleDownPermutes | js/game.js:6-9 | each swap `[a[i], a[j]] = [a[j], a[i]]` of the loop keeps the multiset, so the loop only reorders |
| Shuffle.ShuffledDistinct | js/game.js:4-11 | shuffling a list without repeats gives a list without repeats |
| Shuffle.ShuffledInjective | js/game.js:4-11 | on a list without repeats, two different oracles give two different orders, so every draw of the loop matters |
| Deck.PairsCount | js/game.js:55-58 | easy gives a 4x4 grid (8 pairs), hard 8x6 (24 pairs), and medium or any other value 6x5 (15 pairs) |
| Deck.ImagesDistinct | js/game.js:63-67 | the symbol list has 42 entries and no symbol twice |
| Deck.DealCards | js/game.js:68-69 | `pairsCount` symbols are chosen from the images (a sub-multiset), and the deck has `2 * pairsCount` cards holding each chosen symbol twice |
| Deck.DealIsPairs | js/game.js:68-69 | from a list without repeats, the chosen symbols are different, every card's symbol is on exactly two cards, and the deck shows `pairsCount` different symbols |
| Deck.NewDeck | js/game.js:55-69 | the deck for a difficulty has `2 * pairsCount` cards from the image set, each symbol exactly twice, `pairsCount` symbols in all |
| Deck.ImagesSuffice | js/game.js:62-67 | the built-in list has enough different symbols for every difficulty |
| Winner.MaxScore | js/game.js:423 | `Math.max` of a non-empty score list bounds every score and is attained |
| Winner.Winners | js/game.js:423-427 | an index is listed exactly when its score is the maximum; the list ascends, and it is empty only for no scores |
| Winner.Decide | js/game.js:436-443 | a sole win exactly when one index is listed, and then that player leads every other; otherwise a tie among all listed players |
| Winner.SoleWinIffUniqueMax | js/game.js:423-443 | one winner exactly when some player alone holds the highest score |
| Winner.WinnerExamples | js/game.js:423-427 | scores 3,1,3 tie players 0 and 2; scores 5,2,1 are a sole win for player 0 |
| Board.NewGame | js/game.js:72-75 | a round starts with every card face down, all scores zero, no selection, player 0 to move and no pair matched |
| Board.NewGameValid | js/game.js:68-75 | a fresh round over a deck with no symbol three times satisfies the round invariant |
| Board.OnClick | js/game.js:124-138 | a click on a flipped or matched card, or while two cards are selected, changes nothing; a match scores one point for the current player only, adds one matched pair, clears the selection and keeps both cards flipped; a mismatch scores nothing and keeps both selected; a click never passes the turn |
| Board.OnMatchReveal | js/game.js:140-152 | the reveal of a scored pair gives both cards `matched removing` and removes `flipped`; in any other state it does nothing |
| Board.OnMatchVacate | js/game.js:154-163 | the pair becomes vacant; the only effect is the win screen with the winners of the current scores, shown exactly when every pair has been matched, and nothing else is announced |
| Board.OnNoMatchResolve | js/game.js:169-181 | a pending mismatch turns both cards back, clears the selection and passes the turn to `(current + 1) mod players` |
| Board.Step | js/game.js:124-184 | every event keeps the round invariant: at most two selected face-up cards and never a matching pair among them, scored pairs move together, the scores sum to the matched pairs, and the current player is a player |
| Board.ClickPreservesValid | js/game.js:124-138 | a click keeps the round invariant |
| Board.ScoresNeverDecrease | js/game.js:136-137 | after any event no score is lower, and the scores sum to the matched pairs, which never exceed the pair count |
| Board.TurnPassesOnMismatch | js/game.js:167-174 | the current player changes only when a pending mismatch resolves, and then the scores do not change |
| Board.WinnerOnlyWhenComplete | js/game.js:154-163 | the win screen comes only from the vacate continuation of a complete round, naming the winners of the scores |
| Board.StartRound | js/game.js:51-75 | the dealt round is a fresh game over the dealt deck (every card hidden, nothing flipped, every score zero, first player to move, no pair matched), satisfies the invariant with one score per player and the difficulty's pair count, and every symbol is on two cards |
| Board.Run | js/game.js:124-184 | any sequence of clicks and continuations keeps the invariant and the deck, and never loses or exceeds matched pairs |
| Board.RunKeepsScores | js/game.js:136 | over any sequence of events no player's score goes down |
| Board.CompleteIffAllScored | js/game.js:160 | every pair is matched exactly when every card belongs to a scored pair |
| Board.CompleteIgnoresClicks | js/game.js:125 | once every pair is matched, clicks change nothing |
| Text.Lower | js/game.js:15 | `toLowerCase` maps each character on its own, keeping the length; each upper-case ASCII letter becomes the same letter in lower case (`ToLowerChar`) and nothing else changes |
| Text.Trim | js/game.js:15 | `trim` cuts whitespace-only margins off both ends and keeps the middle as it is, leaving no whitespace at either end; the result is empty exactly when the text is whitespace only |
| Text.Words | js/game.js:15 | `split(/\s+/).filter(Boolean)` yields non-empty pieces without whitespace |
| Text.TitleCaseSingleSpaced | js/game.js:14-16 | every title-cased text has no whitespace at the ends and single spaces between words |
| Text.WordsOfJoin | js/game.js:15 | splitting words joined by single spaces gives the words back |
| Text.TitleCaseIdempotent | js/game.js:14-16 | title-casing twice is title-casing once |
| Text.TitleCaseCollapsesSpacing | js/game.js:14-16 | any run of whitespace between two words becomes one space |
| Text.LowerTrim | js/game.js:15 | lower-casing keeps whitespace in place, so it commutes with `trim` |
| Text.TitleCaseOfLower | js/game.js:14-16 | texts equal once lower-cased are equal once title-cased |
| Text.TitleCaseWords | js/game.js:14-16 | the words of the title are the words of the text, each lower-cased and given an upper-case first letter: no word starts with a lower-case letter or has an upper-case letter after its first |
| Text.WordsOfTrim | js/game.js:15 | trimming does not change the words |
| Text.WordsOfLowerText | js/game.js:15 | the words of lower-cased text are the lower-cased words |
| Names.NatToString | js/game.js:369 | the decimal notation of `n` is a digit string without a leading zero that reads back as `n` |
| Names.DefaultName | js/game.js:369 | the default name of player `i` is `Player ` followed by digits that read as `i+1`, with no whitespace at the ends |
| Names.DefaultNameCanonical | js/game.js:369 | the number in a default name has no leading zero, so it is the decimal notation of `i+1` |
| Names.DefaultNamesDiffer | js/game.js:369-375 | different players' default names differ even once lower-cased |
| Names.BlankInputsAccepted | js/game.js:369-380 | fields that are empty or hold only whitespace are accepted, player `k` named `Player k+1` |
| Names.EffectiveName | js/game.js:369 | an entry counts as its trimmed text, or the default name when that is empty; the result is never empty |
| Names.EffectiveNames | js/game.js:369 | one effective name per entry, in order |
| Names.IndexOf | js/game.js:373 | `indexOf` finds the first position holding the value, or -1 when the value is absent |
| Names.DupesUpTo | js/game.js:372-375 | the reduce accumulator lists exactly the values seen twice so far, each once |
| Names.DupesEmptyIffDistinct | js/game.js:372-380 | no duplicate is reported exactly when the lower-cased names are pairwise different |
| Names.DupesAreRepeats | js/game.js:372-375 | a value is reported exactly when it occurs at two positions |
| Names.ToInt32 | js/game.js:387 | `h \|= 0` wraps to a signed 32-bit value congruent to its input modulo 2^32 |
| Names.CodeUnits | js/game.js:387 | `charCodeAt` reads 16-bit code units, at least one per character |
| Names.CodeUnitsRoundTrip | js/game.js:387 | the code units are the UTF-16 encoding of the text: decoding them gives its code points back |
| Names.HashString | js/game.js:386-388 | the hash is the absolute value of the signed 32-bit accumulator, so at most 2^31 |
| Names.HashStringIsPolynomial | js/game.js:386-388 | the hash is the absolute value of the base-31 polynomial of the code units, wrapped to a signed 32-bit value |
| Names.HashIsPolynomial | js/game.js:386-388 | the accumulator equals the polynomial hash with base 31 modulo 2^32 |
| Names.PaletteWellFormed | js/game.js:383 | the palette has ten different, non-empty colours |
| Names.Probe | js/game.js:392-395 | the inner loop returns the first offset whose candidate is unused, or nothing when all ten are used |
| Names.AssignUpTo | js/game.js:389-397 | after `n` names there are `n` colours, all from the palette |
| Names.AssignColors | js/game.js:389-397 | the outer loop gives every name one colour from the palette |
| Names.AssignDistinct | js/game.js:389-397 | with no more names than colours, no two names get the same colour, for every hash |
| Names.AssignStep | js/game.js:389-397 | one round of the outer loop appends the first free colour and keeps the colours distinct |
| Names.AssignFirstFree | js/game.js:390-396 | each name's colour is the first one, probing from its hash, that no earlier name has |
| Names.AssignPrefix | js/game.js:389-397 | the outer loop only appends, so later names never change earlier colours |
| Names.ColorsByHash | js/game.js:389-397 | in the finished assignment, colour `k` is the first free one probing from hash `k` |
| Names.UsedGrows | js/game.js:389-395 | a colour once taken stays taken for every later name |
| Names.PaletteExhausted | js/game.js:389-395 | after as many names as palette colours, every palette colour is taken |
| Names.AssignFallback | js/game.js:389-396 | for name `n` past the palette's size the probe finds nothing, and its colour is the fallback in slot `(n - 1) mod` palette size |
| Names.ColorsFallback | js/game.js:389-396 | in the finished assignment, colour `k` for `k` at or past the palette's size is the one in slot `k mod` palette size |
| Names.ProbeFinds | js/game.js:392-395 | while fewer colours are used than exist, the probe finds one |
| Names.Submit | js/game.js:368-409 | the handler rejects with the duplicate list exactly when two names agree once lower-cased, and otherwise passes on the effective names with the colours the hash-probe assignment gives them |
| Names.SubmitColorsByHash | js/game.js:383-397 | each accepted player gets the first colour, probing from the hash of their name, that no earlier player has |
| Names.SubmitColorsDistinct | js/game.js:383-397 | accepted players get pairwise different colours when there are at most ten |
| Names.DisplayName | js/game.js:271-273 | a player is shown under the stored name title-cased when it is non-empty, otherwise as `Player i+1`, which title-casing keeps; either way single-spaced (the same lookup as at js/game.js:287-288 and 437-441) |
| Names.DefaultTitled | js/game.js:271-273 | title-casing leaves a default name as it is |
| Names.StoredFormIrrelevant | js/game.js:31-34 | storing the names title-cased or as typed shows the same names |
| Names.TitleCaseNonEmpty | js/game.js:14-16 | a non-empty trimmed name keeps a non-empty title case |
| Names.SpacingDuplicateAccepted | js/game.js:369-380 | two entries that differ only in the spacing between two words are accepted and displayed as one name |
| Names.SubmitChecked | js/game.js:369-380 | the corrected handler rejects exactly when two display forms coincide |
| Names.CheckedDisplaysDistinct | js/game.js:369-380 | players accepted by the corrected handler are displayed under pairwise different names |
| Names.CheckedRejectsMore | js/game.js:369-380 | the corrected handler rejects everything the original rejects, and accepts with the same result |
| Names.CheckedColorsDistinct | js/game.js:383-397 | players accepted by the corrected handler get pairwise different colours when there are at most ten |
| Round.PlayerCount | js/game.js:27 | `parseInt(...) \|\| 2`: NaN and 0 give two players, any other number is kept, so the count is never 0 |
| Round.StartGame | js/game.js:26-83 | the round begins exactly when names are stored and their number equals the player count; it is then a fresh, valid game over the dealt deck (every card hidden, nothing flipped, every score zero, one score per name), and its set-up draws the scoreboard and announces the player to move; otherwise the prompt opens for that count |
| Round.PromptLeadsToRound | js/game.js:29-36 | after the handler accepts the names the round begins exactly when the count is positive; a negative count reopens the prompt for ever |
| Round.CheckedPromptLeadsToRound | js/game.js:29-36 | the same holds with the corrected duplicate check |
| Round.ResetPrompts | js/game.js:492-493 | after the names are deleted, the next start prompts again |
| Round.DealtFromImages | js/game.js:63-69 | with the built-in symbols, a start with matching names deals `2 * pairsCount` cards, each symbol twice |

## Left out

- Rendering and the DOM are not modelled, because they are presentation. This covers `createCard`, `renderScoreboard` markup and initials, the look of `showCenterMessage`, the overlay of the prompt, the CSS grid classes, and the DOM teardown in `resetGame`. The page effects appear only as `Effect` values: those of a click or continuation in `Step`, and those of the round's set-up in `StartGame`.
- Timer durations (600, 350, 800, 1000 ms) are left out. The continuations are events that may fire in any order, which covers every timing.
- `Math.random` is an oracle argument (`draws`), not a random source.
- The Cancel button of the prompt and the guard against a second prompt (`namePrompt` already present) are left out, because they only close or keep the overlay.
- Text is ASCII only. `trim`, `\s`, `toLowerCase` and `toUpperCase` treat the ASCII whitespace and letters; Unicode whitespace and case mappings are not modelled.
- The copy of `toTitleCase` nested in the OK handler (js/game.js:401-403) lacks `filter(Boolean)`. It is not modelled separately: its results are stored and then overwritten with the raw names (js/game.js:31-34), and every display title-cases again (`StoredFormIrrelevant`).
- The exact wording of the rejection message is left out; the model returns the duplicate list it joins.
- Stale timers of an earlier round firing after `resetGame` or a new `startGame` are not modelled. Each round is a separate closure, and the model follows one round.
- The difficulty field's fallback `|| 'medium'` is covered by `PairsCount`, which treats the empty string like any unknown value.
- Text.Words: its contract says only that every piece is a word. The exact split is pinned down by the lemmas about it (`WordsOfJoin`, `WordsAfterSpaces`, `WordsOfWordFirst`), not by `Words` itself.
- The expectations of `tests/game.test.js` (8, 16 and 24 cards) disagree with the code, which deals 16, 30 and 48 cards. The model follows the code.

## Findings

| source | as written | input that shows it | evidently intended | confidence | as-written member | corrected member |
|---|---|---|---|---|---|---|
| js/game.js:369-380 | the uniqueness check compares lower-cased names only, while every display title-cases them, which collapses runs of whitespace between words | entries `Ann  Lee` (two spaces) and `Ann Lee`: both are accepted, and both players are shown as `Ann Lee` on the scoreboard and the win screen | names must be unique as they are displayed, so that players can be told apart | not executed | Names.SpacingDuplicateAccepted | Names.SubmitChecked |

The corrected handler `SubmitChecked` compares the title-cased display forms. `CheckedDisplaysDistinct` proves that the players it accepts are shown under different names. `CheckedRejectsMore` proves it still rejects every entry the original rejects. `Round.PromptLeadsToRound` follows the handler as written; `Round.CheckedPromptLeadsToRound` states the same for the corrected one.

=== FILE: board.dfy ===
/** The turn and match state machine of `onCardClick` (js/game.js:124-184) and
    its timer continuations, as a pure transition function over an explicit
    round state.

    A card's CSS classes become a `CardState`. The three `setTimeout`
    continuations become events. A scheduled continuation is never stored:
    each one corresponds to exactly one configuration of the state, and the
    event is accepted only in that configuration.
      - the 600 ms reveal of a matched pair is pending exactly while both of
        its cards are `Paired`;
      - the 350 ms vacate of that pair is pending exactly while both are
        `Removing`;
      - the 800 ms no-match resolution is pending exactly while two cards are
        selected.
    Events may arrive in any order, which covers every interleaving the
    browser's timers and clicks can produce. */
module Board {
  import opened Seqs
  import opened Shuffle
  import opened Deck
  import opened Winner

  datatype CardState =
    | Hidden    // face down, no class
    | FaceUp    // `flipped`: selected by the current turn
    | Paired    // `flipped`: half of a scored match, waiting for the reveal timer
    | Removing  // `matched removing`
    | Vacant    // `matched vacant`: gone for the rest of the round

  /** Whether the card element carries the `flipped` class. */
  predicate HasFlippedClass(c: CardState) { c.FaceUp? || c.Paired? }

  /** Whether the card element carries the `matched` class. */
  predicate HasMatchedClass(c: CardState) { c.Removing? || c.Vacant? }

  /** The pair containing this card has been scored. */
  predicate IsScored(c: CardState) { c.Paired? || c.Removing? || c.Vacant? }

  predicate IsFaceUp(c: CardState) { c.FaceUp? }

  /** The closure state of one `startGame` call. */
  datatype Game = Game(
    values: seq<Symbol>,     // `cardValues`, the dealt deck
    cards: seq<CardState>,   // the classes of each card element
    flipped: seq<nat>,       // the selection, in click order
    scores: seq<nat>,        // one score per player
    current: nat,            // `currentPlayer`
    matchedPairs: nat,
    pairsCount: nat)

  datatype Event =
    | Click(card: nat)              // a click on card element `card`
    | MatchReveal(a: nat, b: nat)   // the 600 ms continuation of a match
    | MatchVacate(a: nat, b: nat)   // the nested 350 ms continuation
    | NoMatchResolve                // the 800 ms continuation of a mismatch

  /** What the handler asks of the page besides the state change. */
  datatype Effect =
    | RenderScoreboard
    | AnnounceTurn(player: nat)
    | ShowWinner(winners: seq<nat>)

  datatype Transition = Transition(game: Game, effects: seq<Effect>)

  /** The state a round starts in: all cards face down, all scores zero. */
  function NewGame(numPlayers: nat, pairs: nat, values: seq<Symbol>): (g: Game)
    requires |values| == 2 * pairs
    ensures g.values == values && |g.cards| == |values| && |g.scores| == numPlayers
    ensures forall i :: 0 <= i < |g.cards| ==> g.cards[i] == Hidden
    ensures forall p :: 0 <= p < |g.scores| ==> g.scores[p] == 0
    ensures g.flipped == [] && g.current == 0 && g.matchedPairs == 0
    ensures g.pairsCount == pairs
  {
    Game(values, seq(|values|, _ => Hidden), [], seq(numPlayers, _ => 0), 0, 0, pairs)
  }

  /** `onCardClick`. */
  function OnClick(g: Game, i: nat): (t: Transition)
    requires |g.cards| == |g.values| && |g.flipped| <= 2 && g.current < |g.scores|
    requires forall k :: 0 <= k < |g.flipped| ==> g.flipped[k] < |g.cards|
    // a click on a flipped or matched card, or while two are selected, changes nothing
    ensures i >= |g.cards| || g.cards[i] != Hidden || |g.flipped| == 2 ==> t == Transition(g, [])
    ensures |t.game.cards| == |g.cards|
    // otherwise the card turns face up; the turn never passes on a click
    ensures i < |g.cards| && g.cards[i] == Hidden && |g.flipped| < 2 ==>
      && HasFlippedClass(t.game.cards[i])
      && t.game.current == g.current
      && t.game.values == g.values && t.game.pairsCount == g.pairsCount
    // the first card of a turn is only selected
    ensures i < |g.cards| && g.cards[i] == Hidden && |g.flipped| == 0 ==>
      t.game == g.(cards := g.cards[i := FaceUp], flipped := [i]) && t.effects == []
    // a second card with the same symbol: one point for the current player only,
    // one more matched pair, selection cleared, both cards keep `flipped`
    ensures i < |g.cards| && g.cards[i] == Hidden && |g.flipped| == 1
            && g.values[g.flipped[0]] == g.values[i] ==>
      && t.game.scores == g.scores[g.current := g.scores[g.current] + 1]
      && t.game.matchedPairs == g.matchedPairs + 1
      && t.game.flipped == []
      && t.game.cards == g.cards[g.flipped[0] := Paired][i := Paired]
      && t.effects == [RenderScoreboard]
    // a second card with a different symbol: nothing scores, both stay selected
    ensures i < |g.cards| && g.cards[i] == Hidden && |g.flipped| == 1
            && g.values[g.flipped[0]] != g.values[i] ==>
      && t.game.scores == g.scores && t.game.matchedPairs == g.matchedPairs
      && t.game.flipped == [g.flipped[0], i]
      && t.game.cards == g.cards[i := FaceUp]
      && t.effects == []
  {
    if i >= |g.cards| || HasFlippedClass(g.cards[i]) || HasMatchedClass(g.cards[i]) then Transition(g, [])
    else if |g.flipped| == 2 then Transition(g, [])
    else
      var cards := g.cards[i := FaceUp];
      var flipped := g.flipped + [i];
      if |flipped| == 2 then
        var a := flipped[0];
        var b := flipped[1];
        if g.values[a] == g.values[b] then
          var scores := g.scores[g.current := g.scores[g.current] + 1];
          Transition(
            g.(cards := cards[a := Paired][b := Paired], flipped := [], scores := scores,
               matchedPairs := g.matchedPairs + 1),
            [RenderScoreboard])
        else
          Transition(g.(cards := cards, flipped := flipped), [])
      else
        Transition(g.(cards := cards, flipped := flipped), [])
  }

  /** Whether `a` and `b` are the two cards of one pair, both in state `s`. */
  predicate PairIn(g: Game, a: nat, b: nat, s: CardState) {
    a < |g.cards| && b < |g.cards| && |g.values| == |g.cards|
    && a != b && g.values[a] == g.values[b] && g.cards[a] == s && g.cards[b] == s
  }

  /** The 600 ms continuation: both cards get `matched` and `removing`, and lose `flipped`. */
  function OnMatchReveal(g: Game, a: nat, b: nat): (t: Transition)
    ensures !PairIn(g, a, b, Paired) ==> t == Transition(g, [])
    ensures PairIn(g, a, b, Paired) ==>
      && t.game == g.(cards := g.cards[a := Removing][b := Removing])
      && HasMatchedClass(t.game.cards[a]) && !HasFlippedClass(t.game.cards[a])
      && t.effects == []
  {
    if PairIn(g, a, b, Paired) then
      Transition(g.(cards := g.cards[a := Removing][b := Removing]), [])
    else Transition(g, [])
  }

  /** The nested 350 ms continuation: both cards become vacant, and the win
      screen appears once every pair has been matched. */
  function OnMatchVacate(g: Game, a: nat, b: nat): (t: Transition)
    ensures !PairIn(g, a, b, Removing) ==> t == Transition(g, [])
    ensures PairIn(g, a, b, Removing) ==>
      && t.game == g.(cards := g.cards[a := Vacant][b := Vacant])
      && t.effects == (if g.matchedPairs == g.pairsCount then [ShowWinner(Winners(g.scores))] else [])
  {
    if PairIn(g, a, b, Removing) then
      var game := g.(cards := g.cards[a := Vacant][b := Vacant]);
      if g.matchedPairs == g.pairsCount then Transition(game, [ShowWinner(Winners(g.scores))])
      else Transition(game, [])
    else Transition(g, [])
  }

  /** The 800 ms continuation of a mismatch: both cards turn back, the selection
      clears and the turn passes to the next player. */
  function OnNoMatchResolve(g: Game): (t: Transition)
    requires |g.scores| > 0
    requires forall k :: 0 <= k < |g.flipped| ==> g.flipped[k] < |g.cards|
    ensures |g.flipped| != 2 ==> t == Transition(g, [])
    ensures |g.flipped| == 2 ==>
      && t.game == g.(cards := g.cards[g.flipped[0] := Hidden][g.flipped[1] := Hidden],
                      flipped := [], current := (g.current + 1) % |g.scores|)
      && t.effects == [RenderScoreboard, AnnounceTurn(t.game.current)]
  {
    if |g.flipped| == 2 then
      var a := g.flipped[0];
      var b := g.flipped[1];
      var current := (g.current + 1) % |g.scores|;
      Transition(
        g.(cards := g.cards[a := Hidden][b := Hidden], flipped := [], current := current),
        [RenderScoreboard, AnnounceTurn(current)])
    else Transition(g, [])
  }

  /** The invariant every reachable round state keeps. */
  predicate Valid(g: Game) {
    && |g.values| == |g.cards| == 2 * g.pairsCount
    && AtMostTwice(g.values)
    // the selection: at most two distinct face-up cards, and never a matching pair
    && |g.flipped| <= 2
    && (forall k :: 0 <= k < |g.flipped| ==> g.flipped[k] < |g.cards| && g.cards[g.flipped[k]] == FaceUp)
    && (|g.flipped| == 2 ==> g.flipped[0] != g.flipped[1] && g.values[g.flipped[0]] != g.values[g.flipped[1]])
    && CountIf(g.cards, IsFaceUp) == |g.flipped|
    // the two cards of a scored pair always move together
    && PartnersAgree(g.values, g.cards)
    && CountIf(g.cards, IsScored) == 2 * g.matchedPairs
    // scoring
    && |g.scores| >= 1 && g.current < |g.scores|
    && Sum(g.scores) == g.matchedPairs
  }

  predicate PartnersAgree(values: seq<Symbol>, cards: seq<CardState>)
    requires |values| == |cards|
  {
    forall i, j ::
      0 <= i < |cards| && 0 <= j < |cards| && i != j && values[i] == values[j] && IsScored(cards[i])
      ==> cards[j] == cards[i]
  }

  /** One event, dispatched to its handler. */
  function Step(g: Game, e: Event): (t: Transition)
    requires Valid(g)
    ensures Valid(t.game)
    ensures t.game.values == g.values && t.game.pairsCount == g.pairsCount
    ensures |t.game.scores| == |g.scores|
    ensures g.matchedPairs <= t.game.matchedPairs
  {
    match e
    case Click(i) =>
      ClickPreservesValid(g, i);
      OnClick(g, i)
    case MatchReveal(a, b) =>
      RevealPreservesValid(g, a, b);
      OnMatchReveal(g, a, b)
    case MatchVacate(a, b) =>
      VacatePreservesValid(g, a, b);
      OnMatchVacate(g, a, b)
    case NoMatchResolve =>
      ResolvePreservesValid(g);
      OnNoMatchResolve(g)
  }

  /** Scores never go down, and every point is a matched pair. */
  lemma ScoresNeverDecrease(g: Game, e: Event)
    requires Valid(g)
    ensures var h := Step(g, e).game;
      && (forall p :: 0 <= p < |g.scores| ==> g.scores[p] <= h.scores[p])
      && Sum(h.scores) == h.matchedPairs <= h.pairsCount
  {
  }

  /** The turn passes only when a mismatch resolves, and then to the next player
      with the scores unchanged. */
  lemma TurnPassesOnMismatch(g: Game, e: Event)
    requires Valid(g)
    ensures var h := Step(g, e).game;
      && (h.current != g.current ==> e.NoMatchResolve? && |g.flipped| == 2)
      && (e.NoMatchResolve? && |g.flipped| == 2 ==>
            h.current == (g.current + 1) % |g.scores| && h.scores == g.scores)
  {
  }

  /** The win screen appears only from the vacate continuation of a complete
      round, and names the leaders of the final scores. */
  lemma WinnerOnlyWhenComplete(g: Game, e: Event)
    requires Valid(g)
    ensures forall w :: ShowWinner(w) in Step(g, e).effects ==>
      e.MatchVacate? && g.matchedPairs == g.pairsCount && w == Winners(g.scores)
  {
  }

  /** Changing an unscored card to another unscored state keeps scored pairs together. */
  lemma PartnersAgreeUnscored(values: seq<Symbol>, cards: seq<CardState>, i: nat, v: CardState)
    requires |values| == |cards| && i < |cards| && PartnersAgree(values, cards)
    requires !IsScored(cards[i]) && !IsScored(v)
    ensures PartnersAgree(values, cards[i := v])
  {
    var c := cards[i := v];
    forall x, y | 0 <= x < |c| && 0 <= y < |c| && x != y && values[x] == values[y] && IsScored(c[x])
      ensures c[y] == c[x]
    {
      assert x != i;
      assert cards[y] == cards[x];
    }
  }

  /** Giving both cards of a pair the same scored state keeps scored pairs together. */
  lemma PartnersAgreePair(values: seq<Symbol>, cards: seq<CardState>, a: nat, b: nat, v: CardState)
    requires |values| == |cards| && a < |cards| && b < |cards| && a != b && values[a] == values[b]
    requires AtMostTwice(values) && PartnersAgree(values, cards) && IsScored(v)
    ensures PartnersAgree(values, cards[a := v][b := v])
  {
    var c := cards[a := v][b := v];
    forall x, y | 0 <= x < |c| && 0 <= y < |c| && x != y && values[x] == values[y] && IsScored(c[x])
      ensures c[y] == c[x]
    {
      if x != a && x != b && y != a && y != b {
        assert cards[y] == cards[x];
      }
    }
  }

  /** The first card of a turn. */
  lemma SelectFirstPreservesValid(g: Game, i: nat)
    requires Valid(g) && i < |g.cards| && g.cards[i] == Hidden && |g.flipped| == 0
    ensures Valid(g.(cards := g.cards[i := FaceUp], flipped := [i]))
  {
    CountIfUpdate(g.cards, i, FaceUp, IsFaceUp);
    CountIfUpdate(g.cards, i, FaceUp, IsScored);
    PartnersAgreeUnscored(g.values, g.cards, i, FaceUp);
  }

  /** A second card with a different symbol. */
  lemma SelectMismatchPreservesValid(g: Game, i: nat)
    requires Valid(g) && i < |g.cards| && g.cards[i] == Hidden && |g.flipped| == 1
    requires g.values[g.flipped[0]] != g.values[i]
    ensures Valid(g.(cards := g.cards[i := FaceUp], flipped := [g.flipped[0], i]))
  {
    CountIfUpdate(g.cards, i, FaceUp, IsFaceUp);
    CountIfUpdate(g.cards, i, FaceUp, IsScored);
    PartnersAgreeUnscored(g.values, g.cards, i, FaceUp);
  }

  /** A second card with the same symbol. */
  lemma SelectMatchPreservesValid(g: Game, i: nat)
    requires Valid(g) && i < |g.cards| && g.cards[i] == Hidden && |g.flipped| == 1
    requires g.values[g.flipped[0]] == g.values[i]
    ensures Valid(g.(cards := g.cards[g.flipped[0] := Paired][i := Paired], flipped := [],
                     scores := g.scores[g.current := g.scores[g.current] + 1],
                     matchedPairs := g.matchedPairs + 1))
  {
    var a := g.flipped[0];
    var c1 := g.cards[a := Paired];
    CountIfUpdate(g.cards, a, Paired, IsFaceUp);
    CountIfUpdate(g.cards, a, Paired, IsScored);
    CountIfUpdate(c1, i, Paired, IsFaceUp);
    CountIfUpdate(c1, i, Paired, IsScored);
    SumIncrement(g.scores, g.current);
    PartnersAgreePair(g.values, g.cards, a, i, Paired);
  }

  lemma ClickPreservesValid(g: Game, i: nat)
    requires Valid(g)
    ensures Valid(OnClick(g, i).game)
  {
    if i < |g.cards| && g.cards[i] == Hidden && |g.flipped| < 2 {
      if |g.flipped| == 0 {
        SelectFirstPreservesValid(g, i);
      } else if g.values[g.flipped[0]] == g.values[i] {
        SelectMatchPreservesValid(g, i);
      } else {
        SelectMismatchPreservesValid(g, i);
      }
    }
  }

  lemma RevealPreservesValid(g: Game, a: nat, b: nat)
    requires Valid(g)
    ensures Valid(OnMatchReveal(g, a, b).game)
  {
    if PairIn(g, a, b, Paired) {
      MovePairPreservesValid(g, a, b, Paired, Removing);
    }
  }

  lemma VacatePreservesValid(g: Game, a: nat, b: nat)
    requires Valid(g)
    ensures Valid(OnMatchVacate(g, a, b).game)
  {
    if PairIn(g, a, b, Removing) {
      MovePairPreservesValid(g, a, b, Removing, Vacant);
    }
  }

  /** Both cards of a scored pair move from one scored state to another. */
  lemma MovePairPreservesValid(g: Game, a: nat, b: nat, from: CardState, to: CardState)
    requires Valid(g) && PairIn(g, a, b, from) && IsScored(from) && IsScored(to)
    ensures Valid(g.(cards := g.cards[a := to][b := to]))
  {
    var c1 := g.cards[a := to];
    CountIfUpdate(g.cards, a, to, IsFaceUp);
    CountIfUpdate(g.cards, a, to, IsScored);
    CountIfUpdate(c1, b, to, IsFaceUp);
    CountIfUpdate(c1, b, to, IsScored);
    PartnersAgreePair(g.values, g.cards, a, b, to);
  }

  lemma ResolvePreservesValid(g: Game)
    requires Valid(g)
    ensures Valid(OnNoMatchResolve(g).game)
  {
    if |g.flipped| == 2 {
      var a := g.flipped[0];
      var b := g.flipped[1];
      var c1 := g.cards[a := Hidden];
      CountIfUpdate(g.cards, a, Hidden, IsFaceUp);
      CountIfUpdate(g.cards, a, Hidden, IsScored);
      CountIfUpdate(c1, b, Hidden, IsFaceUp);
      CountIfUpdate(c1, b, Hidden, IsScored);
      PartnersAgreeUnscored(g.values, g.cards, a, Hidden);
      PartnersAgreeUnscored(g.values, c1, b, Hidden);
    }
  }

  /** A fresh round over any deck in which no symbol occurs three times is valid. */
  lemma NewGameValid(numPlayers: nat, pairs: nat, values: seq<Symbol>)
    requires numPlayers >= 1 && |values| == 2 * pairs && AtMostTwice(values)
    ensures Valid(NewGame(numPlayers, pairs, values))
  {
    var g := NewGame(numPlayers, pairs, values);
    CountIfNone(g.cards, IsFaceUp);
    CountIfNone(g.cards, IsScored);
    SumZeros(numPlayers);
    assert g.scores == seq(numPlayers, _ => 0);
  }

  /** The round `startGame` sets up once names are known for `numPlayers` players. */
  function StartRound(numPlayers: nat, images: seq<Symbol>, difficulty: string, d1: seq<nat>, d2: seq<nat>): (g: Game)
    requires numPlayers >= 1 && Distinct(images) && PairsCount(difficulty) <= |images|
    requires ValidDraws(d1, |images|) && ValidDraws(d2, 2 * PairsCount(difficulty))
    ensures Valid(g) && g.pairsCount == PairsCount(difficulty) && |g.scores| == numPlayers
    ensures forall k :: 0 <= k < |g.values| ==> multiset(g.values)[g.values[k]] == 2
    ensures g == NewGame(numPlayers, PairsCount(difficulty), g.values)
  {
    var pairs := PairsCount(difficulty);
    var values := NewDeck(images, difficulty, d1, d2);
    NewGameValid(numPlayers, pairs, values);
    NewGame(numPlayers, pairs, values)
  }

  /** The state after a sequence of clicks and timer continuations. */
  function Run(g: Game, events: seq<Event>): (h: Game)
    requires Valid(g)
    ensures Valid(h)
    ensures h.values == g.values && h.pairsCount == g.pairsCount && |h.scores| == |g.scores|
    ensures g.matchedPairs <= h.matchedPairs <= h.pairsCount
    decreases |events|
  {
    if |events| == 0 then g else Run(Step(g, events[0]).game, events[1..])
  }

  /** Over any sequence of events, no player's score ever goes down. */
  lemma {:induction false} RunKeepsScores(g: Game, events: seq<Event>)
    requires Valid(g)
    ensures forall p :: 0 <= p < |g.scores| ==> g.scores[p] <= Run(g, events).scores[p]
    decreases |events|
  {
    if |events| > 0 {
      var h := Step(g, events[0]).game;
      ScoresNeverDecrease(g, events[0]);
      RunKeepsScores(h, events[1..]);
    }
  }

  /** A round is complete exactly when every card belongs to a scored pair. */
  lemma CompleteIffAllScored(g: Game)
    requires Valid(g)
    ensures g.matchedPairs == g.pairsCount <==> forall i :: 0 <= i < |g.cards| ==> IsScored(g.cards[i])
  {
    if g.matchedPairs == g.pairsCount {
      CountIfFull(g.cards, IsScored);
    }
    if forall i :: 0 <= i < |g.cards| ==> IsScored(g.cards[i]) {
      CountIfAll(g.cards, IsScored);
    }
  }

  /** Once every pair is matched, no click changes anything. */
  lemma CompleteIgnoresClicks(g: Game, i: nat)
    requires Valid(g) && g.matchedPairs == g.pairsCount
    ensures Step(g, Click(i)) == Transition(g, [])
  {
    CompleteIffAllScored(g);
  }
}

=== FILE: deck.dfy ===
/** Board generation in `startGame` (js/game.js:51-69): the difficulty picks a
    number of pairs, `pairsCount` symbols are drawn from a fixed set of 42 by
    shuffling and taking a prefix, and the doubled list is shuffled again. */
module Deck {
  import opened Seqs
  import opened Shuffle

  /** A card face. Every symbol of the set is a single code point. */
  type Symbol = char

  /** The `IMAGES` list, in source order. */
  const Images: seq<Symbol> := "🍎🍌🍓🍇🍉🍒🍋🥝🍑🍍🥥🍐🍊🥭🍈🍠🐶🐱🐭🐹🐰🦊🐻🐼🐨🐯🦁🐮🐷🐸🐵🐔🦄🐝🐙🐬🦖🦋🦅🦉🌵🍄"

  /** Position of a symbol in `Images` (-1 for any other character). */
  function ImageRank(c: Symbol): (rank: int) {
    if c == '🍎' then 0 else
    if c == '🍌' then 1 else
    if c == '🍓' then 2 else
    if c == '🍇' then 3 else
    if c == '🍉' then 4 else
    if c == '🍒' then 5 else
    if c == '🍋' then 6 else
    if c == '🥝' then 7 else
    if c == '🍑' then 8 else
    if c == '🍍' then 9 else
    if c == '🥥' then 10 else
    if c == '🍐' then 11 else
    if c == '🍊' then 12 else
    if c == '🥭' then 13 else
    if c == '🍈' then 14 else
    if c == '🍠' then 15 else
    if c == '🐶' then 16 else
    if c == '🐱' then 17 else
    if c == '🐭' then 18 else
    if c == '🐹' then 19 else
    if c == '🐰' then 20 else
    if c == '🦊' then 21 else
    if c == '🐻' then 22 else
    if c == '🐼' then 23 else
    if c == '🐨' then 24 else
    if c == '🐯' then 25 else
    if c == '🦁' then 26 else
    if c == '🐮' then 27 else
    if c == '🐷' then 28 else
    if c == '🐸' then 29 else
    if c == '🐵' then 30 else
    if c == '🐔' then 31 else
    if c == '🦄' then 32 else
    if c == '🐝' then 33 else
    if c == '🐙' then 34 else
    if c == '🐬' then 35 else
    if c == '🦖' then 36 else
    if c == '🦋' then 37 else
    if c == '🦅' then 38 else
    if c == '🦉' then 39 else
    if c == '🌵' then 40 else
    if c == '🍄' then 41 else
    -1
  }

  /** No symbol of `Images` is listed twice. */
  lemma ImagesDistinct()
    ensures |Images| == 42 && Distinct(Images)
  {
    forall i | 0 <= i < |Images| ensures ImageRank(Images[i]) == i {
      assert i == 0 || i == 1 || i == 2 || i == 3 || i == 4 || i == 5 || i == 6 || i == 7 ||
        i == 8 || i == 9 || i == 10 || i == 11 || i == 12 || i == 13 || i == 14 || i == 15 ||
        i == 16 || i == 17 || i == 18 || i == 19 || i == 20 || i == 21 || i == 22 || i == 23 ||
        i == 24 || i == 25 || i == 26 || i == 27 || i == 28 || i == 29 || i == 30 || i == 31 ||
        i == 32 || i == 33 || i == 34 || i == 35 || i == 36 || i == 37 || i == 38 || i == 39 ||
        i == 40 || i == 41;
    }
  }

  /** Pairs for a difficulty: easy is a 4x4 grid, medium 6x5, hard 8x6, anything else medium. */
  function PairsCount(difficulty: string): (pairs: nat)
    ensures difficulty == "easy" ==> 2 * pairs == 4 * 4
    ensures difficulty == "hard" ==> 2 * pairs == 8 * 6
    ensures difficulty != "easy" && difficulty != "hard" ==> 2 * pairs == 6 * 5
    ensures pairs <= 24
  {
    if difficulty == "easy" then (4 * 4) / 2
    else if difficulty == "medium" then (6 * 5) / 2
    else if difficulty == "hard" then (8 * 6) / 2
    else 15
  }

  /** The symbols chosen for a round and the dealt cards. */
  datatype Deal<T> = Deal(chosen: seq<T>, cards: seq<T>)

  /** `shuffleArray(images).slice(0, pairs)`, then `shuffleArray([...chosen, ...chosen])`. */
  function DealCards<T>(images: seq<T>, pairs: nat, d1: seq<nat>, d2: seq<nat>): (r: Deal<T>)
    requires pairs <= |images|
    requires ValidDraws(d1, |images|) && ValidDraws(d2, 2 * pairs)
    ensures |r.chosen| == pairs && |r.cards| == 2 * pairs
    ensures multiset(r.chosen) <= multiset(images)
    ensures multiset(r.cards) == multiset(r.chosen) + multiset(r.chosen)
  {
    var shuffled := Shuffled(images, d1);
    var chosen := shuffled[..pairs];
    assert shuffled == chosen + shuffled[pairs..];
    Deal(chosen, Shuffled(chosen + chosen, d2))
  }

  /** From a repeat-free symbol set, the deal uses `pairs` different symbols, every
      card's symbol appears on exactly two cards, and the number of different
      symbols on the cards is `pairs`. */
  lemma DealIsPairs<T>(images: seq<T>, pairs: nat, d1: seq<nat>, d2: seq<nat>)
    requires pairs <= |images| && Distinct(images)
    requires ValidDraws(d1, |images|) && ValidDraws(d2, 2 * pairs)
    ensures var r := DealCards(images, pairs, d1, d2);
      && Distinct(r.chosen)
      && (forall x :: x in r.cards ==> x in images)
      && (forall k :: 0 <= k < |r.cards| ==> multiset(r.cards)[r.cards[k]] == 2)
      && AtMostTwice(r.cards)
      && |set x | x in r.cards| == pairs
  {
    var r := DealCards(images, pairs, d1, d2);
    ChosenDistinct(images, r.chosen);
    CardsArePairs(r.chosen, r.cards);
    forall x | x in r.cards ensures x in images {
      assert x in r.chosen;
      assert x in multiset(r.chosen);
    }
  }

  /** A sub-multiset of a repeat-free sequence has no repeats either. */
  lemma ChosenDistinct<T>(images: seq<T>, chosen: seq<T>)
    requires Distinct(images) && multiset(chosen) <= multiset(images)
    ensures Distinct(chosen)
  {
    DistinctMultiplicity(images);
    assert forall x :: multiset(chosen)[x] <= 1 by {
      forall x ensures multiset(chosen)[x] <= 1 {
        assert multiset(chosen)[x] <= multiset(images)[x];
      }
    }
    DistinctMultiplicity(chosen);
  }

  /** A permutation of a repeat-free sequence written twice: the same symbols, each twice. */
  lemma CardsArePairs<T>(chosen: seq<T>, cards: seq<T>)
    requires Distinct(chosen) && multiset(cards) == multiset(chosen) + multiset(chosen)
    ensures forall x :: x in cards <==> x in chosen
    ensures forall k :: 0 <= k < |cards| ==> multiset(cards)[cards[k]] == 2
    ensures AtMostTwice(cards)
    ensures |set x | x in cards| == |chosen|
  {
    DistinctMultiplicity(chosen);
    forall x ensures x in cards <==> x in chosen {
      assert x in cards <==> x in multiset(cards);
      assert x in chosen <==> x in multiset(chosen);
    }
    forall k | 0 <= k < |cards| ensures multiset(cards)[cards[k]] == 2 {
      assert cards[k] in multiset(cards);
    }
    MultiplicityAtMostTwice(cards);
    var cardSet := set x | x in cards;
    var chosenSet := set x | x in chosen;
    assert cardSet == chosenSet;
    DistinctCardinality(chosen);
  }

  /** The deck `startGame` lays out for a difficulty: `PairsCount(difficulty)`
      different symbols of `images`, each on exactly two cards. The symbol set
      is a parameter so that the proofs about it do not unfold the 42-element
      literal; `ImagesSuffice` shows that `Images` meets the requirements. */
  function NewDeck(images: seq<Symbol>, difficulty: string, d1: seq<nat>, d2: seq<nat>): (cards: seq<Symbol>)
    requires Distinct(images) && PairsCount(difficulty) <= |images|
    requires ValidDraws(d1, |images|) && ValidDraws(d2, 2 * PairsCount(difficulty))
    ensures |cards| == 2 * PairsCount(difficulty)
    ensures forall x :: x in cards ==> x in images
    ensures forall k :: 0 <= k < |cards| ==> multiset(cards)[cards[k]] == 2
    ensures AtMostTwice(cards)
    ensures |set x | x in cards| == PairsCount(difficulty)
  {
    DealIsPairs(images, PairsCount(difficulty), d1, d2);
    DealCards(images, PairsCount(difficulty), d1, d2).cards
  }

  /** `Images` holds enough different symbols for every difficulty. */
  lemma ImagesSuffice(difficulty: string)
    ensures Distinct(Images) && PairsCount(difficulty) <= |Images|
  {
    ImagesDistinct();
  }
}

=== FILE: names.dfy ===
/** The OK handler of the name prompt (js/game.js:368-409): effective names,
    the case-insensitive duplicate check, `hashString`, and the
    hash-then-probe assignment of avatar colours; and the name lookup every
    display uses (js/game.js:77-80, 271-273, 287-288, 437-448). */
module Names {
  import opened Seqs
  import opened Text

  function Digit(d: nat): (c: char)
    requires d < 10
    ensures '0' <= c <= '9'
  {
    ('0' as int + d) as char
  }

  predicate AllDigits(s: string) {
    forall i :: 0 <= i < |s| ==> '0' <= s[i] <= '9'
  }

  /** The number a string of decimal digits denotes. */
  function DecimalValue(s: string): (v: nat)
    requires AllDigits(s)
  {
    if |s| == 0 then 0 else 10 * DecimalValue(s[..|s| - 1]) + (s[|s| - 1] as int - '0' as int)
  }

  /** Decimal notation of `n`, as template literals print it: digits that
      read back as `n`, with no leading zero. */
  function NatToString(n: nat): (s: string)
    ensures |s| > 0 && AllDigits(s)
    ensures DecimalValue(s) == n
    ensures n > 0 ==> s[0] != '0'
  {
    if n < 10 then [Digit(n)]
    else
      var p := NatToString(n / 10);
      var s := p + [Digit(n % 10)];
      assert s[..|s| - 1] == p;
      s
  }

  /** `Player ${i+1}`, the name of player `i` when none was given. */
  function DefaultName(i: nat): (s: string)
    ensures Trimmed(s) && |s| > 7 && s[..7] == "Player "
    ensures AllDigits(s[7..]) && DecimalValue(s[7..]) == i + 1
  {
    var s := "Player " + NatToString(i + 1);
    assert s[7..] == NatToString(i + 1);
    s
  }

  /** The number in a default name is written without a leading zero, so
      the name is exactly `Player ` and the decimal notation of `i+1`. */
  lemma DefaultNameCanonical(i: nat)
    ensures DefaultName(i)[7] != '0'
  {
  }

  /** Different players get default names that differ even once lower-cased,
      so blank fields never trip the duplicate check. */
  lemma DefaultNamesDiffer(i: nat, j: nat)
    requires i != j
    ensures Lower(DefaultName(i)) != Lower(DefaultName(j))
  {
    var a, b := DefaultName(i), DefaultName(j);
    LowerDrop(a, 7);
    LowerDrop(b, 7);
    LowerOfDigits(a[7..]);
    LowerOfDigits(b[7..]);
    assert Lower(a)[7..] != Lower(b)[7..];
  }

  /** Lower-casing leaves digits as they are. */
  lemma LowerOfDigits(d: string)
    requires AllDigits(d)
    ensures Lower(d) == d
  {
  }

  /** The name a prompt field yields: its trimmed text, or the default when
      that is empty. */
  function EffectiveName(input: string, i: nat): (name: string)
    ensures |name| > 0 && Trimmed(name)
    ensures Trim(input) != "" ==> name == Trim(input)
    ensures Trim(input) == "" ==> name == DefaultName(i)
  {
    if Trim(input) != "" then Trim(input) else DefaultName(i)
  }

  function EffectiveNames(inputs: seq<string>): (names: seq<string>)
    ensures |names| == |inputs|
    ensures forall i :: 0 <= i < |inputs| ==> names[i] == EffectiveName(inputs[i], i)
  {
    seq(|inputs|, i requires 0 <= i < |inputs| => EffectiveName(inputs[i], i))
  }

  /** `Array.prototype.indexOf`: the first position holding `x`, or -1. */
  function IndexOf<T(==)>(s: seq<T>, x: T): (k: int)
    ensures -1 <= k < |s|
    ensures k >= 0 ==> s[k] == x && forall j :: 0 <= j < k ==> s[j] != x
    ensures k == -1 ==> x !in s
  {
    if |s| == 0 then -1
    else if s[0] == x then 0
    else
      var k := IndexOf(s[1..], x);
      if k == -1 then -1 else k + 1
  }

  /** `x` occurs twice among the first `n` elements. */
  predicate RepeatedBefore(s: seq<string>, x: string, n: nat)
    requires n <= |s|
  {
    exists i, j :: 0 <= i < j < n && s[i] == x && s[j] == x
  }

  /** The accumulator of the `reduce` at js/game.js:372-375 after the first `n`
      elements: every value seen twice so far, once each. */
  function DupesUpTo(s: seq<string>, n: nat): (acc: seq<string>)
    requires n <= |s|
    ensures forall x :: x in acc <==> RepeatedBefore(s, x, n)
    ensures Distinct(acc)
  {
    if n == 0 then []
    else
      var acc := DupesUpTo(s, n - 1);
      var cur := s[n - 1];
      var r := if IndexOf(s, cur) != n - 1 && cur !in acc then acc + [cur] else acc;
      assert forall x :: RepeatedBefore(s, x, n) <==> RepeatedBefore(s, x, n - 1) || (x == cur && IndexOf(s, cur) < n - 1) by {
        forall x ensures RepeatedBefore(s, x, n) <==> RepeatedBefore(s, x, n - 1) || (x == cur && IndexOf(s, cur) < n - 1) {
          if RepeatedBefore(s, x, n) && !RepeatedBefore(s, x, n - 1) {
            var i, j :| 0 <= i < j < n && s[i] == x && s[j] == x;
            assert j == n - 1;
          }
          if x == cur && 0 <= IndexOf(s, cur) < n - 1 {
            assert s[IndexOf(s, cur)] == x && s[n - 1] == x;
          }
        }
      }
      r
  }

  function Dupes(s: seq<string>): (d: seq<string>) {
    DupesUpTo(s, |s|)
  }

  /** The duplicate list is empty exactly when no value repeats. */
  lemma DupesEmptyIffDistinct(s: seq<string>)
    ensures Dupes(s) == [] <==> Distinct(s)
  {
    if Dupes(s) != [] {
      var x := Dupes(s)[0];
      assert x in Dupes(s);
    }
    if !Distinct(s) {
      var i, j :| 0 <= i < j < |s| && s[i] == s[j];
      assert RepeatedBefore(s, s[i], |s|);
    }
  }

  /** Every value in the duplicate list occurs at least twice, and every value
      that occurs twice is listed. */
  lemma DupesAreRepeats(s: seq<string>, x: string)
    ensures x in Dupes(s) <==> exists i, j :: 0 <= i < j < |s| && s[i] == x && s[j] == x
  {
  }

  // ---------------------------------------------------------------- hashing

  const TwoTo31: int := 0x8000_0000
  const TwoTo32: int := 0x1_0000_0000

  /** ECMAScript ToInt32: wrap to a signed 32-bit value. */
  function ToInt32(x: int): (r: int)
    ensures -TwoTo31 <= r < TwoTo31
    ensures (r - x) % TwoTo32 == 0
  {
    (x + TwoTo31) % TwoTo32 - TwoTo31
  }

  /** The UTF-16 code units `charCodeAt` reads. */
  function CodeUnits(s: string): (u: seq<nat>)
    ensures |u| >= |s|
    ensures forall k :: 0 <= k < |u| ==> u[k] < 0x1_0000
  {
    if |s| == 0 then []
    else
      var c := s[0] as int;
      var head := if c < 0x1_0000 then [c]
                  else [0xD800 + (c - 0x1_0000) / 0x400, 0xDC00 + (c - 0x1_0000) % 0x400];
      head + CodeUnits(s[1..])
  }

  /** The code points of `s`. */
  function CodePoints(s: string): (cs: seq<int>)
    ensures |cs| == |s|
    ensures forall k :: 0 <= k < |s| ==> cs[k] == s[k] as int
  {
    seq(|s|, k requires 0 <= k < |s| => s[k] as int)
  }

  /** UTF-16 decoding: a high surrogate followed by a low surrogate is one
      code point, any other unit stands for itself. */
  function DecodeUnits(u: seq<nat>): (cs: seq<int>)
    decreases |u|
  {
    if |u| == 0 then []
    else if 0xD800 <= u[0] < 0xDC00 && |u| >= 2 && 0xDC00 <= u[1] < 0xE000 then
      [0x1_0000 + (u[0] - 0xD800) * 0x400 + (u[1] - 0xDC00)] + DecodeUnits(u[2..])
    else [u[0]] + DecodeUnits(u[1..])
  }

  /** `CodeUnits` is the UTF-16 encoding: decoding the units gives the code
      points back. */
  lemma {:induction false} CodeUnitsRoundTrip(s: string)
    ensures DecodeUnits(CodeUnits(s)) == CodePoints(s)
    decreases |s|
  {
    if |s| > 0 {
      CodeUnitsRoundTrip(s[1..]);
      var c := s[0] as int;
      var u := CodeUnits(s);
      var rest := CodeUnits(s[1..]);
      if c < 0x1_0000 {
        assert u == [c] + rest;
        assert u[1..] == rest;
      } else {
        assert u[2..] == rest;
      }
      assert CodePoints(s) == [c] + CodePoints(s[1..]);
    }
  }

  /** One step of the loop: `h = ((h << 5) - h) + code; h |= 0`. */
  function HashStep(h: int, code: nat): (r: int)
    requires -TwoTo31 <= h < TwoTo31
    ensures -TwoTo31 <= r < TwoTo31
  {
    ToInt32(ToInt32(h * 32) - h + code)
  }

  /** The signed accumulator after all of `units`. */
  function HashUnits(units: seq<nat>): (h: int)
    ensures -TwoTo31 <= h < TwoTo31
  {
    if |units| == 0 then 0 else HashStep(HashUnits(units[..|units| - 1]), units[|units| - 1])
  }

  /** `hashString`: the absolute value of the accumulator. */
  function HashString(s: string): (h: nat)
    ensures h <= TwoTo31
    ensures var a := HashUnits(CodeUnits(s)); h == a || h == -a
  {
    var a := HashUnits(CodeUnits(s));
    if a < 0 then -a else a
  }

  /** The polynomial `sum of u[k] * 31^(n-1-k)` the loop computes modulo 2^32. */
  function Polynomial(units: seq<nat>): (p: int) {
    if |units| == 0 then 0 else 31 * Polynomial(units[..|units| - 1]) + units[|units| - 1]
  }

  /** The accumulator agrees with the polynomial hash modulo 2^32: shifting
      by five and subtracting once is multiplying by 31, and the wrap-arounds
      only drop multiples of 2^32. */
  lemma {:induction false} HashIsPolynomial(units: seq<nat>)
    ensures (HashUnits(units) - Polynomial(units)) % TwoTo32 == 0
  {
    if |units| > 0 {
      var prefix := units[..|units| - 1];
      var c := units[|units| - 1];
      var h := HashUnits(prefix);
      var p := Polynomial(prefix);
      HashIsPolynomial(prefix);
      var k := MultipleOf(h - p);
      var inner := ToInt32(h * 32);
      var m := MultipleOf(inner - h * 32);
      var outer := ToInt32(inner - h + c);
      var n := MultipleOf(outer - (inner - h + c));
      assert HashUnits(units) == outer;
      assert Polynomial(units) == 31 * p + c;
      assert outer - (31 * p + c) == (n + m + 31 * k) * TwoTo32;
      MultipleMod(n + m + 31 * k);
    }
  }

  /** `hashString(s)` is the absolute value of the base-31 polynomial of the
      code units of `s`, wrapped to a signed 32-bit value. */
  lemma HashStringIsPolynomial(s: string)
    ensures var p := ToInt32(Polynomial(CodeUnits(s)));
      HashString(s) == if p < 0 then -p else p
  {
    var u := CodeUnits(s);
    HashIsPolynomial(u);
    var k := MultipleOf(HashUnits(u) - Polynomial(u));
    var m := MultipleOf(ToInt32(Polynomial(u)) - Polynomial(u));
    SameWindow(HashUnits(u), ToInt32(Polynomial(u)), k - m);
  }

  /** Two signed 32-bit values that differ by a multiple of 2^32 are equal. */
  lemma SameWindow(a: int, b: int, k: int)
    requires -TwoTo31 <= a < TwoTo31 && -TwoTo31 <= b < TwoTo31
    requires a - b == k * TwoTo32
    ensures a == b
  {
  }

  lemma MultipleOf(x: int) returns (k: int)
    requires x % TwoTo32 == 0
    ensures x == k * TwoTo32
  {
    k := x / TwoTo32;
  }

  lemma MultipleMod(k: int)
    ensures (k * TwoTo32) % TwoTo32 == 0
  {
  }

  // --------------------------------------------------------------- colours

  /** The avatar colours, in source order. */
  const Palette: seq<string> := [
    "linear-gradient(135deg,#6ea8ff,#a17bff)", "linear-gradient(135deg,#FFD36B,#FF7AB6)",
    "linear-gradient(135deg,#7EE787,#66D3FF)", "linear-gradient(135deg,#FFB86B,#FF6B9E)",
    "linear-gradient(135deg,#C6A0FF,#8FE3FF)", "linear-gradient(135deg,#F78DA7,#FFD36B)",
    "linear-gradient(135deg,#90EE90,#32CDFF)", "linear-gradient(135deg,#FF9F9F,#FFCF6B)",
    "linear-gradient(135deg,#A0E7FF,#B38DFF)", "linear-gradient(135deg,#FFD2E0,#CFE9FF)"]

  /** Ten different, non-empty colours. */
  lemma PaletteWellFormed()
    ensures |Palette| == 10 && GoodPalette(Palette)
  {
  }

  /** The colour tried at probe offset `off` from slot `base`. */
  function Candidate(pal: seq<string>, base: nat, off: nat): (c: string)
    requires |pal| > 0
  {
    pal[(base + off) % |pal|]
  }

  /** The inner loop: the first offset from `off` on whose candidate is unused. */
  function Probe(pal: seq<string>, base: nat, used: set<string>, off: nat): (r: Option<nat>)
    requires |pal| > 0
    ensures r.Some? ==> off <= r.value < |pal| && Candidate(pal, base, r.value) !in used
    ensures r.Some? ==> forall o :: off <= o < r.value ==> Candidate(pal, base, o) in used
    ensures r.None? ==> forall o :: off <= o < |pal| ==> Candidate(pal, base, o) in used
    decreases |pal| - off
  {
    if off >= |pal| then None
    else if Candidate(pal, base, off) !in used then Some(off)
    else Probe(pal, base, used, off + 1)
  }

  /** The outer loop's state: the colours so far and the `used` set. */
  datatype Assignment = Assignment(colors: seq<string>, used: set<string>)

  /** The outer loop after the first `n` names with hashes `hashes`. A probe
      that finds nothing, or finds the empty string (which `||` treats as
      missing), falls back to `PALETTE[i % PALETTE.length]`. */
  function AssignUpTo(pal: seq<string>, hashes: seq<nat>, n: nat): (a: Assignment)
    requires |pal| > 0 && n <= |hashes|
    ensures |a.colors| == n
    ensures forall k :: 0 <= k < n ==> a.colors[k] in pal
    ensures a.used <= set k | 0 <= k < |pal| :: pal[k]
  {
    if n == 0 then Assignment([], {})
    else
      var a := AssignUpTo(pal, hashes, n - 1);
      var base := hashes[n - 1] % |pal|;
      match Probe(pal, base, a.used, 0)
      case Some(off) =>
        var c := Candidate(pal, base, off);
        assert c == pal[(base + off) % |pal|];
        Assignment(a.colors + [if c != "" then c else pal[(n - 1) % |pal|]], a.used + {c})
      case None =>
        Assignment(a.colors + [pal[(n - 1) % |pal|]], a.used)
  }

  function AssignColors(pal: seq<string>, hashes: seq<nat>): (colors: seq<string>)
    requires |pal| > 0
    ensures |colors| == |hashes|
    ensures forall k :: 0 <= k < |colors| ==> colors[k] in pal
  {
    AssignUpTo(pal, hashes, |hashes|).colors
  }

  /** Colour `c` is the first candidate from slot `base` not among `taken`. */
  predicate FirstFree(pal: seq<string>, base: nat, taken: seq<string>, c: string)
    requires |pal| > 0
  {
    exists off :: 0 <= off < |pal| && c == Candidate(pal, base, off)
      && forall o :: 0 <= o < off ==> Candidate(pal, base, o) in taken
  }

  /** A palette the assignment can keep apart: non-empty, different colours. */
  predicate GoodPalette(pal: seq<string>) {
    |pal| > 0 && Distinct(pal) && forall k :: 0 <= k < |pal| ==> pal[k] != ""
  }

  /** What the outer loop keeps true while no more names than colours have
      been seen: the colours so far are different, and `used` holds exactly them. */
  predicate AssignInvariant(pal: seq<string>, hashes: seq<nat>, n: nat)
    requires |pal| > 0 && n <= |hashes|
  {
    var a := AssignUpTo(pal, hashes, n);
    Distinct(a.colors) && a.used == (set x | x in a.colors)
  }

  /** With no more names than colours, no two names share a colour, whatever
      the hashes. */
  lemma {:induction false} AssignDistinct(pal: seq<string>, hashes: seq<nat>, n: nat)
    requires GoodPalette(pal) && n <= |hashes| && n <= |pal|
    ensures AssignInvariant(pal, hashes, n)
  {
    if n > 0 {
      AssignDistinct(pal, hashes, n - 1);
      var c := AssignStep(pal, hashes, n);
    }
  }

  /** One round of the outer loop from the invariant: the probe finds a free
      colour `c` and that colour is appended. */
  lemma AssignStep(pal: seq<string>, hashes: seq<nat>, n: nat) returns (c: string)
    requires GoodPalette(pal) && 0 < n <= |hashes| && n <= |pal|
    requires AssignInvariant(pal, hashes, n - 1)
    ensures AssignInvariant(pal, hashes, n)
    ensures AssignUpTo(pal, hashes, n).colors == AssignUpTo(pal, hashes, n - 1).colors + [c]
    ensures FirstFree(pal, hashes[n - 1] % |pal|, AssignUpTo(pal, hashes, n - 1).colors, c)
  {
    var a := AssignUpTo(pal, hashes, n - 1);
    var base := hashes[n - 1] % |pal|;
    var off := AssignAppends(pal, hashes, n);
    c := Candidate(pal, base, off);
    AppendFresh(a.colors, a.used, c);
    assert FirstFree(pal, base, a.colors, c) by {
      assert forall o :: 0 <= o < off ==> Candidate(pal, base, o) in a.used;
    }
  }

  /** From the invariant the probe finds a colour, at offset `off` from the
      hash, and that colour is appended and marked used. */
  lemma AssignAppends(pal: seq<string>, hashes: seq<nat>, n: nat) returns (off: nat)
    requires GoodPalette(pal) && 0 < n <= |hashes| && n <= |pal|
    requires AssignInvariant(pal, hashes, n - 1)
    ensures Probe(pal, hashes[n - 1] % |pal|, AssignUpTo(pal, hashes, n - 1).used, 0) == Some(off)
    ensures var a := AssignUpTo(pal, hashes, n - 1);
      var c := Candidate(pal, hashes[n - 1] % |pal|, off);
      AssignUpTo(pal, hashes, n) == Assignment(a.colors + [c], a.used + {c})
  {
    var a := AssignUpTo(pal, hashes, n - 1);
    DistinctCardinality(a.colors);
    off := ProbeFinds(pal, hashes[n - 1] % |pal|, a.used);
    var c := Candidate(pal, hashes[n - 1] % |pal|, off);
    assert c == pal[(hashes[n - 1] % |pal| + off) % |pal|];
  }

  /** Each name gets the first colour, probing from its hash, that no earlier
      name has: the colours are spread by hash rather than handed out in order. */
  lemma AssignFirstFree(pal: seq<string>, hashes: seq<nat>, n: nat)
    requires GoodPalette(pal) && 0 < n <= |hashes| && n <= |pal|
    ensures var colors := AssignUpTo(pal, hashes, n).colors;
      FirstFree(pal, hashes[n - 1] % |pal|, colors[..n - 1], colors[n - 1])
  {
    AssignDistinct(pal, hashes, n - 1);
    var c := AssignStep(pal, hashes, n);
    var colors := AssignUpTo(pal, hashes, n).colors;
    assert colors[..n - 1] == AssignUpTo(pal, hashes, n - 1).colors;
  }

  /** The outer loop only appends: the colours after `n` names begin the
      colours after any later name. */
  lemma {:induction false} AssignPrefix(pal: seq<string>, hashes: seq<nat>, n: nat, m: nat)
    requires |pal| > 0 && n <= m <= |hashes|
    ensures AssignUpTo(pal, hashes, m).colors[..n] == AssignUpTo(pal, hashes, n).colors
    decreases m - n
  {
    if n < m {
      AssignPrefix(pal, hashes, n, m - 1);
      var before := AssignUpTo(pal, hashes, m - 1).colors;
      var after := AssignUpTo(pal, hashes, m).colors;
      assert after[..m - 1] == before;
      assert after[..n] == before[..n];
    }
  }

  /** Appending a colour outside the used set keeps the colours different and
      the used set equal to the colours. */
  lemma AppendFresh(colors: seq<string>, used: set<string>, c: string)
    requires Distinct(colors) && used == (set x | x in colors) && c !in used
    ensures Distinct(colors + [c]) && used + {c} == (set x | x in colors + [c])
  {
  }

  /** While fewer colours are used than the palette holds, the probe succeeds. */
  lemma ProbeFinds(pal: seq<string>, base: nat, used: set<string>) returns (off: nat)
    requires |pal| > 0 && Distinct(pal) && base < |pal| && |used| < |pal|
    ensures Probe(pal, base, used, 0) == Some(off)
  {
    DistinctCardinality(pal);
    var x := NotAllUsed((set y | y in pal), used);
    var idx :| 0 <= idx < |pal| && pal[idx] == x;
    var o := OffsetTo(base, idx, |pal|);
    assert Candidate(pal, base, o) == x;
    off := Probe(pal, base, used, 0).value;
  }

  /** Every slot is reached by some offset from any starting slot. */
  lemma OffsetTo(base: nat, idx: nat, size: nat) returns (o: nat)
    requires base < size && idx < size
    ensures o < size && (base + o) % size == idx
  {
    if base <= idx {
      o := idx - base;
    } else {
      o := idx + size - base;
      assert base + o == idx + size;
    }
  }

  /** A larger set has an element outside a smaller one. */
  lemma NotAllUsed(all: set<string>, used: set<string>) returns (x: string)
    requires |used| < |all|
    ensures x in all && x !in used
  {
    var rest := all - used;
    assert all == rest + (all * used);
    assert |all * used| <= |used| by {
      assert used == (all * used) + (used - all);
    }
    assert |rest| > 0;
    x :| x in rest;
  }

  // ---------------------------------------------------------- the OK handler

  datatype Submission =
    | Rejected(dupes: seq<string>)
    | Accepted(names: seq<string>, colors: seq<string>)

  function Hashes(names: seq<string>): (hs: seq<nat>)
    ensures |hs| == |names|
    ensures forall i :: 0 <= i < |names| ==> hs[i] == HashString(names[i])
  {
    seq(|names|, i requires 0 <= i < |names| => HashString(names[i]))
  }

  function LowerAll(names: seq<string>): (ls: seq<string>)
    ensures |ls| == |names|
    ensures forall i :: 0 <= i < |names| ==> ls[i] == Lower(names[i])
  {
    seq(|names|, i requires 0 <= i < |names| => Lower(names[i]))
  }

  /** The OK handler as written, with the palette `pal` (the handler uses
      `Palette`): duplicates are compared after lower-casing only. Accepted
      names are what the prompt passes on, and what `startGame` then stores. */
  function Submit(pal: seq<string>, inputs: seq<string>): (r: Submission)
    requires GoodPalette(pal)
    ensures r.Accepted? <==> Distinct(LowerAll(EffectiveNames(inputs)))
    ensures r.Rejected? ==> r.dupes == Dupes(LowerAll(EffectiveNames(inputs))) && |r.dupes| > 0
    ensures r.Accepted? ==> r.names == EffectiveNames(inputs) && |r.colors| == |inputs|
    ensures r.Accepted? ==> r.colors == AssignColors(pal, Hashes(r.names))
  {
    var names := EffectiveNames(inputs);
    var dupes := Dupes(LowerAll(names));
    DupesEmptyIffDistinct(LowerAll(names));
    if |dupes| > 0 then Rejected(dupes)
    else Accepted(names, AssignColors(pal, Hashes(names)))
  }

  /** With no more players than colours, accepted players get different colours. */
  lemma SubmitColorsDistinct(pal: seq<string>, inputs: seq<string>)
    requires GoodPalette(pal) && |inputs| <= |pal|
    ensures Submit(pal, inputs).Accepted? ==> Distinct(Submit(pal, inputs).colors)
  {
    var names := EffectiveNames(inputs);
    AssignDistinct(pal, Hashes(names), |names|);
    assert AssignColors(pal, Hashes(names)) == AssignUpTo(pal, Hashes(names), |names|).colors;
  }

  /** The colours the handler hands out follow the hash probe: with at most
      as many players before `k` as colours, player `k` gets the first colour,
      probing from the hash of their name, that no earlier player has. */
  lemma SubmitColorsByHash(pal: seq<string>, inputs: seq<string>, k: nat)
    requires GoodPalette(pal) && k < |inputs| && k < |pal|
    ensures var r := Submit(pal, inputs);
      r.Accepted? ==> FirstFree(pal, HashString(r.names[k]) % |pal|, r.colors[..k], r.colors[k])
  {
    var r := Submit(pal, inputs);
    if r.Accepted? {
      ColorsByHash(pal, Hashes(r.names), k);
    }
  }

  /** Colour `k` of the whole assignment is the first free one from hash `k`. */
  lemma ColorsByHash(pal: seq<string>, hashes: seq<nat>, k: nat)
    requires GoodPalette(pal) && k < |hashes| && k < |pal|
    ensures var colors := AssignColors(pal, hashes);
      FirstFree(pal, hashes[k] % |pal|, colors[..k], colors[k])
  {
    var colors := AssignColors(pal, hashes);
    AssignFirstFree(pal, hashes, k + 1);
    AssignPrefix(pal, hashes, k + 1, |hashes|);
    var first := AssignUpTo(pal, hashes, k + 1).colors;
    assert colors[..k + 1] == first;
    assert colors[..k] == first[..k];
    assert colors[k] == first[k];
  }

  /** Seeing one more name never takes a colour back out of `used`. */
  lemma {:induction false} UsedGrows(pal: seq<string>, hashes: seq<nat>, n: nat, m: nat)
    requires |pal| > 0 && n <= m <= |hashes|
    ensures AssignUpTo(pal, hashes, n).used <= AssignUpTo(pal, hashes, m).used
    decreases m - n
  {
    if n < m {
      UsedGrows(pal, hashes, n, m - 1);
    }
  }

  /** A subset at least as large as its superset is the superset. */
  lemma SubsetFills(small: set<string>, big: set<string>)
    requires small <= big && |big| <= |small|
    ensures small == big
  {
    assert big == small + (big - small);
    assert |big - small| == 0;
  }

  /** Once as many names as colours have been seen, every colour is used. */
  lemma PaletteExhausted(pal: seq<string>, hashes: seq<nat>)
    requires GoodPalette(pal) && |pal| <= |hashes|
    ensures forall k :: 0 <= k < |pal| ==> pal[k] in AssignUpTo(pal, hashes, |pal|).used
  {
    var a := AssignUpTo(pal, hashes, |pal|);
    var all := set x | x in pal;
    AssignDistinct(pal, hashes, |pal|);
    DistinctCardinality(a.colors);
    DistinctCardinality(pal);
    assert a.used <= all by {
      forall x | x in a.used ensures x in all {
        var k :| 0 <= k < |pal| && pal[k] == x;
      }
    }
    SubsetFills(a.used, all);
    forall k | 0 <= k < |pal| ensures pal[k] in a.used {
      assert pal[k] in all;
    }
  }

  /** With every colour used, the probe finds nothing. */
  lemma ProbeExhausted(pal: seq<string>, base: nat, used: set<string>)
    requires |pal| > 0 && forall k :: 0 <= k < |pal| ==> pal[k] in used
    ensures Probe(pal, base, used, 0).None?
  {
  }

  /** Past the first `|pal|` names the probe always fails, and name `n`
      falls back to the colour in slot `(n - 1) mod |pal|`. */
  lemma AssignFallback(pal: seq<string>, hashes: seq<nat>, n: nat)
    requires GoodPalette(pal) && |pal| < n <= |hashes|
    ensures AssignUpTo(pal, hashes, n).colors[n - 1] == pal[(n - 1) % |pal|]
  {
    PaletteExhausted(pal, hashes);
    UsedGrows(pal, hashes, |pal|, n - 1);
    var a := AssignUpTo(pal, hashes, n - 1);
    ProbeExhausted(pal, hashes[n - 1] % |pal|, a.used);
  }

  /** Colour `k` of the whole assignment, for `k` at or past the palette's
      size, is the colour in slot `k mod |pal|`. */
  lemma ColorsFallback(pal: seq<string>, hashes: seq<nat>, k: nat)
    requires GoodPalette(pal) && |pal| <= k < |hashes|
    ensures AssignColors(pal, hashes)[k] == pal[k % |pal|]
  {
    AssignFallback(pal, hashes, k + 1);
    AssignPrefix(pal, hashes, k + 1, |hashes|);
    assert AssignColors(pal, hashes)[..k + 1][k] == AssignColors(pal, hashes)[k];
  }

  /** Fields left empty or holding only whitespace all pass the duplicate
      check: player `k` becomes `Player k+1`, and no two of those agree. */
  lemma BlankInputsAccepted(pal: seq<string>, inputs: seq<string>)
    requires GoodPalette(pal)
    requires forall k, c :: 0 <= k < |inputs| && 0 <= c < |inputs[k]| ==> IsSpace(inputs[k][c])
    ensures Submit(pal, inputs).Accepted?
    ensures forall k :: 0 <= k < |inputs| ==> Submit(pal, inputs).names[k] == DefaultName(k)
  {
    var names := EffectiveNames(inputs);
    forall k | 0 <= k < |inputs| ensures names[k] == DefaultName(k) {
      assert Trim(inputs[k]) == "";
    }
    var low := LowerAll(names);
    forall i, j | 0 <= i < j < |low| ensures low[i] != low[j] {
      DefaultNamesDiffer(i, j);
    }
  }

  /** The name displays show for player `i`: the stored name title-cased if
      there is a non-empty one; otherwise the default, which title-casing
      leaves as it is. */
  function DisplayName(stored: seq<string>, i: nat): (r: string)
    ensures SingleSpaced(r)
    ensures i < |stored| && stored[i] != "" ==> r == TitleCase(stored[i])
    ensures i >= |stored| || stored[i] == "" ==> r == DefaultName(i)
  {
    var raw := if i < |stored| && stored[i] != "" then stored[i] else DefaultName(i);
    DefaultTitled(i);
    TitleCaseSingleSpaced(raw);
    TitleCase(raw)
  }

  /** `toTitleCase` leaves `Player ${i+1}` as it is. */
  lemma DefaultTitled(i: nat)
    ensures TitleCase(DefaultName(i)) == DefaultName(i)
  {
    var d := NatToString(i + 1);
    assert DefaultName(i) == "Player" + " " + d;
    PlayerIsTitle();
    TitleKeeps("Player", d);
  }

  lemma PlayerIsTitle()
    ensures IsWord("Player") && Capitalize(Lower("Player")) == "Player"
  {
  }

  /** A capitalized word followed by a space and a number is its own title case. */
  lemma TitleKeeps(w: string, d: string)
    requires IsWord(w) && Capitalize(Lower(w)) == w
    requires |d| > 0 && AllDigits(d)
    ensures TitleCase(w + " " + d) == w + " " + d
  {
    var s := w + " " + d;
    assert Trimmed(s) by {
      assert s[0] == w[0] && s[|s| - 1] == d[|d| - 1];
    }
    assert Lower(s) == Lower(w) + " " + d by {
      LowerConcat(w, " ");
      LowerConcat(w + " ", d);
      LowerOfDigits(d);
      assert Lower(" ") == " ";
    }
    LowerWord(w);
    assert IsWord(d) by {
      assert forall k :: 0 <= k < |d| ==> '0' <= d[k] <= '9';
    }
    WordsOfTwo(Lower(w), " ", d);
    assert CapitalizeAll([Lower(w), d]) == [w, d] by {
      CapitalizeDigits(d);
    }
    assert Join([w, d]) == w + " " + Join([d]);
  }

  lemma CapitalizeDigits(d: string)
    requires |d| > 0 && AllDigits(d)
    ensures Capitalize(d) == d
  {
    assert Capitalize(d) == [d[0]] + d[1..];
  }

  /** Storing the title-cased names (js/game.js:404) or the names as typed
      (js/game.js:31-34, which overwrites them) shows the same names, since
      every display title-cases what is stored. */
  lemma StoredFormIrrelevant(names: seq<string>, i: nat)
    requires forall k :: 0 <= k < |names| ==> names[k] != "" && Trimmed(names[k])
    ensures DisplayName(TitleCaseAll(names), i) == DisplayName(names, i)
  {
    if i < |names| {
      TitleCaseNonEmpty(names[i]);
      TitleCaseIdempotent(names[i]);
    }
  }

  function TitleCaseAll(names: seq<string>): (ts: seq<string>)
    ensures |ts| == |names|
    ensures forall k :: 0 <= k < |names| ==> ts[k] == TitleCase(names[k])
  {
    seq(|names|, k requires 0 <= k < |names| => TitleCase(names[k]))
  }

  /** A non-empty trimmed name keeps at least one word. */
  lemma TitleCaseNonEmpty(s: string)
    requires s != "" && Trimmed(s)
    ensures TitleCase(s) != ""
  {
    var low := Lower(Trim(s));
    assert low == Lower(s);
    assert !IsSpace(low[0]);
    var ws := Words(low);
    assert ws == [low[..WordLength(low)]] + Words(low[WordLength(low)..]);
    assert CapitalizeAll(ws)[0] == Capitalize(ws[0]);
  }

  // ------------------------------------------- names that display alike

  /** Two entries that differ only in the whitespace between the same two words
      pass the duplicate check, which compares lower-cased text, yet every
      display shows both players under one name. */
  lemma SpacingDuplicateAccepted(pal: seq<string>, x: string, y: string)
    requires GoodPalette(pal) && IsWord(x) && IsWord(y)
    ensures var r := Submit(pal, [x + "  " + y, x + " " + y]);
      r.Accepted? && DisplayName(r.names, 0) == DisplayName(r.names, 1)
  {
    SpacedNamesAccepted(pal, x, y);
    SpacedNamesDisplayAlike(x, y);
  }

  lemma SpacedNamesAccepted(pal: seq<string>, x: string, y: string)
    requires GoodPalette(pal) && IsWord(x) && IsWord(y)
    ensures var r := Submit(pal, [x + "  " + y, x + " " + y]);
      r.Accepted? && r.names == [x + "  " + y, x + " " + y]
  {
    SpacedNamesDiffer(x, y);
  }

  lemma SpacedNamesDisplayAlike(x: string, y: string)
    requires IsWord(x) && IsWord(y)
    ensures var names := [x + "  " + y, x + " " + y];
      DisplayName(names, 0) == DisplayName(names, 1)
  {
    var names := [x + "  " + y, x + " " + y];
    TitleCaseCollapsesSpacing(x, "  ", y);
  }

  /** The two spellings are their own effective names and differ once lower-cased. */
  lemma SpacedNamesDiffer(x: string, y: string)
    requires IsWord(x) && IsWord(y)
    ensures var a, b := x + "  " + y, x + " " + y;
      EffectiveNames([a, b]) == [a, b] && Distinct(LowerAll([a, b]))
  {
    var a, b := x + "  " + y, x + " " + y;
    assert EffectiveNames([a, b]) == [a, b] by {
      assert EffectiveName(a, 0) == a by {
        assert a[0] == x[0] && a[|a| - 1] == y[|y| - 1];
        EffectiveOfTrimmed(a, 0);
      }
      assert EffectiveName(b, 1) == b by {
        assert b[0] == x[0] && b[|b| - 1] == y[|y| - 1];
        EffectiveOfTrimmed(b, 1);
      }
    }
    assert Distinct(LowerAll([a, b])) by {
      LengthsDiffer(a, b);
    }
  }

  /** Names of different lengths stay apart once lower-cased. */
  lemma LengthsDiffer(a: string, b: string)
    requires |a| != |b|
    ensures Distinct(LowerAll([a, b]))
  {
    var l := LowerAll([a, b]);
    assert |l| == 2 && |l[0]| == |a| && |l[1]| == |b|;
    forall i, j | 0 <= i < j < |l| ensures l[i] != l[j] {
      assert i == 0 && j == 1;
    }
  }

  /** A name that is already trimmed and non-empty is kept as typed. */
  lemma EffectiveOfTrimmed(s: string, i: nat)
    requires s != "" && Trimmed(s)
    ensures EffectiveName(s, i) == s
  {
  }

  /** The display forms of the effective names: the text players are shown under. */
  function DisplayKeys(inputs: seq<string>): (keys: seq<string>)
    ensures |keys| == |inputs|
    ensures forall i :: 0 <= i < |inputs| ==> keys[i] == TitleCase(EffectiveName(inputs[i], i))
  {
    TitleCaseAll(EffectiveNames(inputs))
  }

  /** The OK handler with the duplicate check made on the display forms, so that
      players who would be shown under one name are told apart at entry. */
  function SubmitChecked(pal: seq<string>, inputs: seq<string>): (r: Submission)
    requires GoodPalette(pal)
    ensures r.Accepted? <==> Distinct(DisplayKeys(inputs))
    ensures r.Rejected? ==> r.dupes == Dupes(DisplayKeys(inputs)) && |r.dupes| > 0
    ensures r.Accepted? ==> r.names == EffectiveNames(inputs) && |r.colors| == |inputs|
    ensures r.Accepted? ==> r.colors == AssignColors(pal, Hashes(r.names))
  {
    var names := EffectiveNames(inputs);
    var dupes := Dupes(DisplayKeys(inputs));
    DupesEmptyIffDistinct(DisplayKeys(inputs));
    if |dupes| > 0 then Rejected(dupes)
    else Accepted(names, AssignColors(pal, Hashes(names)))
  }

  /** Players accepted by the corrected check are shown under different names. */
  lemma CheckedDisplaysDistinct(pal: seq<string>, inputs: seq<string>)
    requires GoodPalette(pal)
    ensures var r := SubmitChecked(pal, inputs);
      r.Accepted? ==> forall i, j :: 0 <= i < j < |inputs| ==> DisplayName(r.names, i) != DisplayName(r.names, j)
  {
    var r := SubmitChecked(pal, inputs);
    if r.Accepted? {
      forall i | 0 <= i < |inputs| ensures DisplayName(r.names, i) == DisplayKeys(inputs)[i] {
      }
    }
  }

  /** The corrected check rejects every entry the original check rejects, and
      gives the same colours when it accepts. */
  lemma CheckedRejectsMore(pal: seq<string>, inputs: seq<string>)
    requires GoodPalette(pal)
    ensures Submit(pal, inputs).Rejected? ==> SubmitChecked(pal, inputs).Rejected?
    ensures SubmitChecked(pal, inputs).Accepted? ==> SubmitChecked(pal, inputs) == Submit(pal, inputs)
  {
    var names := EffectiveNames(inputs);
    KeysFinerThanLower(inputs);
    assert Distinct(DisplayKeys(inputs)) ==> Distinct(LowerAll(names));
  }

  /** Entries that agree once lower-cased agree once title-cased. */
  lemma KeysFinerThanLower(inputs: seq<string>)
    ensures Distinct(DisplayKeys(inputs)) ==> Distinct(LowerAll(EffectiveNames(inputs)))
  {
    var names := EffectiveNames(inputs);
    var keys := DisplayKeys(inputs);
    if !Distinct(LowerAll(names)) {
      var i, j :| 0 <= i < j < |names| && LowerAll(names)[i] == LowerAll(names)[j];
      TitleCaseOfLower(names[i], names[j]);
      assert keys[i] == keys[j];
    }
  }

  /** With no more players than colours, players the corrected check accepts
      get different colours. */
  lemma CheckedColorsDistinct(pal: seq<string>, inputs: seq<string>)
    requires GoodPalette(pal) && |inputs| <= |pal|
    ensures SubmitChecked(pal, inputs).Accepted? ==> Distinct(SubmitChecked(pal, inputs).colors)
  {
    CheckedRejectsMore(pal, inputs);
    SubmitColorsDistinct(pal, inputs);
  }
}

=== FILE: round.dfy ===
/** How a round starts (js/game.js:26-37): the player count is read from the
    form, names are prompted for until there is one per player, and only then
    is the board dealt. The stored names (`window._playerNames`) are passed in
    explicitly; `None` is the state before any prompt and after `resetGame`
    (js/game.js:492-493) deletes them. */
module Round {
  import opened Seqs
  import opened Shuffle
  import opened Deck
  import opened Board
  import opened Names

  /** `parseInt(field, 10) || 2`. `None` is a field that does not start with a
      number (NaN); NaN and 0 are falsy, so both fall back to two players. A
      negative number is kept. */
  function PlayerCount(field: Option<int>): (n: int)
    ensures n != 0
    ensures field.Some? && field.value != 0 ==> n == field.value
    ensures field.None? || field.value == 0 ==> n == 2
  {
    if field.Some? && field.value != 0 then field.value else 2
  }

  /** Either the name prompt opens for `count` players, or the round begins
      with the page effects of its set-up: the scoreboard is drawn, then the
      starting player is announced (js/game.js:76-83). */
  datatype Launch = PromptForNames(count: int) | Begin(game: Game, effects: seq<Effect>)

  /** `startGame`: without stored names, or with a number of them different from
      the player count, the prompt opens; otherwise a fresh round is dealt. */
  function StartGame(stored: Option<seq<string>>, field: Option<int>, images: seq<Symbol>,
                     difficulty: string, d1: seq<nat>, d2: seq<nat>): (l: Launch)
    requires Distinct(images) && PairsCount(difficulty) <= |images|
    requires ValidDraws(d1, |images|) && ValidDraws(d2, 2 * PairsCount(difficulty))
    ensures l.Begin? <==> stored.Some? && |stored.value| == PlayerCount(field)
    ensures l.PromptForNames? ==> l.count == PlayerCount(field)
    ensures l.Begin? ==>
      && Valid(l.game)
      && |l.game.scores| == |stored.value| >= 1
      && l.game.pairsCount == PairsCount(difficulty)
      && l.game.matchedPairs == 0 && l.game.current == 0
      && (forall k :: 0 <= k < |l.game.values| ==> l.game.values[k] in images)
    ensures l.Begin? ==> l.game == NewGame(|stored.value|, PairsCount(difficulty), l.game.values)
    ensures l.Begin? ==> l.effects == [RenderScoreboard, AnnounceTurn(l.game.current)]
  {
    var count := PlayerCount(field);
    if stored.None? || |stored.value| != count then PromptForNames(count)
    else
      var g := StartRound(count, images, difficulty, d1, d2);
      assert g.matchedPairs == 0 && g.current == 0;
      assert forall k :: 0 <= k < |g.values| ==> g.values[k] in images;
      Begin(g, [RenderScoreboard, AnnounceTurn(0)])
  }

  /** The prompt for `count` players has one field per player, none when
      `count` is negative. */
  function PromptFields(count: int): (n: nat)
    ensures count >= 0 ==> n == count
    ensures count < 0 ==> n == 0
  {
    if count < 0 then 0 else count
  }

  /** Pressing Start with accepted names stores them and runs `startGame` again
      (js/game.js:31-35, 408). The round begins exactly when the player count is
      positive: a negative count yields a prompt with no fields, whose empty name
      list never matches the count, so the prompt reopens every time. */
  lemma PromptLeadsToRound(pal: seq<string>, inputs: seq<string>, field: Option<int>,
                           images: seq<Symbol>, difficulty: string, d1: seq<nat>, d2: seq<nat>)
    requires GoodPalette(pal) && |inputs| == PromptFields(PlayerCount(field))
    requires Distinct(images) && PairsCount(difficulty) <= |images|
    requires ValidDraws(d1, |images|) && ValidDraws(d2, 2 * PairsCount(difficulty))
    requires Submit(pal, inputs).Accepted?
    ensures var l := StartGame(Some(Submit(pal, inputs).names), field, images, difficulty, d1, d2);
      (l.Begin? <==> PlayerCount(field) > 0)
      && (l.Begin? ==> |l.game.scores| == |inputs|)
  {
  }

  /** The same with the corrected duplicate check: it accepts only entries the
      handler accepts, and then stores the same names. */
  lemma CheckedPromptLeadsToRound(pal: seq<string>, inputs: seq<string>, field: Option<int>,
                                  images: seq<Symbol>, difficulty: string, d1: seq<nat>, d2: seq<nat>)
    requires GoodPalette(pal) && |inputs| == PromptFields(PlayerCount(field))
    requires Distinct(images) && PairsCount(difficulty) <= |images|
    requires ValidDraws(d1, |images|) && ValidDraws(d2, 2 * PairsCount(difficulty))
    requires SubmitChecked(pal, inputs).Accepted?
    ensures var l := StartGame(Some(SubmitChecked(pal, inputs).names), field, images, difficulty, d1, d2);
      (l.Begin? <==> PlayerCount(field) > 0)
      && (l.Begin? ==> |l.game.scores| == |inputs|)
  {
    CheckedRejectsMore(pal, inputs);
    PromptLeadsToRound(pal, inputs, field, images, difficulty, d1, d2);
  }

  /** After `resetGame` the names are gone, so the next start prompts again. */
  lemma ResetPrompts(field: Option<int>, images: seq<Symbol>, difficulty: string, d1: seq<nat>, d2: seq<nat>)
    requires Distinct(images) && PairsCount(difficulty) <= |images|
    requires ValidDraws(d1, |images|) && ValidDraws(d2, 2 * PairsCount(difficulty))
    ensures StartGame(None, field, images, difficulty, d1, d2) == PromptForNames(PlayerCount(field))
  {
  }

  /** The round `startGame` deals with the built-in symbol set: its cards carry
      `PairsCount(difficulty)` different symbols of `Images`, each on two cards. */
  lemma DealtFromImages(names: seq<string>, field: Option<int>, difficulty: string, d1: seq<nat>, d2: seq<nat>)
    requires ValidDraws(d1, |Images|) && ValidDraws(d2, 2 * PairsCount(difficulty))
    requires |names| == PlayerCount(field)
    ensures Distinct(Images) && PairsCount(difficulty) <= |Images|
    ensures var l := StartGame(Some(names), field, Images, difficulty, d1, d2);
      && l.Begin?
      && |l.game.values| == 2 * PairsCount(difficulty)
      && (forall k :: 0 <= k < |l.game.values| ==> multiset(l.game.values)[l.game.values[k]] == 2)
  {
    ImagesSuffice(difficulty);
  }
}

=== FILE: seqs.dfy ===
/** Sequence vocabulary shared by the other modules: distinctness, bounded
    repetition, counting and summing. */
module Seqs {

  datatype Option<+T> = None | Some(value: T)

  /** No element occurs twice. */
  predicate Distinct<T(==)>(s: seq<T>) {
    forall i, j :: 0 <= i < j < |s| ==> s[i] != s[j]
  }

  /** No element occurs three times: every symbol of a deck has at most one partner. */
  predicate AtMostTwice<T(==)>(s: seq<T>) {
    forall i, j, k :: 0 <= i < j < k < |s| ==> !(s[i] == s[j] && s[j] == s[k])
  }

  /** Number of elements satisfying `p`. */
  function CountIf<T>(s: seq<T>, p: T -> bool): (n: nat)
    ensures n <= |s|
  {
    if |s| == 0 then 0
    else CountIf(s[..|s| - 1], p) + (if p(s[|s| - 1]) then 1 else 0)
  }

  /** Nothing is counted when no element satisfies `p`. */
  lemma {:induction false} CountIfNone<T>(s: seq<T>, p: T -> bool)
    requires forall i :: 0 <= i < |s| ==> !p(s[i])
    ensures CountIf(s, p) == 0
  {
    if |s| > 0 {
      CountIfNone(s[..|s| - 1], p);
    }
  }

  /** Everything is counted when every element satisfies `p`. */
  lemma {:induction false} CountIfAll<T>(s: seq<T>, p: T -> bool)
    requires forall i :: 0 <= i < |s| ==> p(s[i])
    ensures CountIf(s, p) == |s|
  {
    if |s| > 0 {
      CountIfAll(s[..|s| - 1], p);
    }
  }

  function Sum(s: seq<int>): (total: int) {
    if |s| == 0 then 0 else Sum(s[..|s| - 1]) + s[|s| - 1]
  }

  /** Replacing one element changes the count by the difference of the two verdicts. */
  lemma {:induction false} CountIfUpdate<T>(s: seq<T>, i: nat, v: T, p: T -> bool)
    requires i < |s|
    ensures CountIf(s[i := v], p)
            == CountIf(s, p) - (if p(s[i]) then 1 else 0) + (if p(v) then 1 else 0)
  {
    var t := s[i := v];
    var n := |s| - 1;
    assert t[..n] == if i < n then s[..n][i := v] else s[..n];
    if i < n {
      CountIfUpdate(s[..n], i, v, p);
    }
  }

  /** The count reaches the length only when every element satisfies `p`. */
  lemma {:induction false} CountIfFull<T>(s: seq<T>, p: T -> bool)
    requires CountIf(s, p) == |s|
    ensures forall i :: 0 <= i < |s| ==> p(s[i])
  {
    if |s| > 0 {
      var n := |s| - 1;
      assert CountIf(s[..n], p) <= n;
      CountIfFull(s[..n], p);
      forall i | 0 <= i < |s| ensures p(s[i]) {
        if i < n { assert s[i] == s[..n][i]; }
      }
    }
  }

  /** Adding one to one element adds one to the sum. */
  lemma {:induction false} SumIncrement(s: seq<int>, i: nat)
    requires i < |s|
    ensures Sum(s[i := s[i] + 1]) == Sum(s) + 1
  {
    var t := s[i := s[i] + 1];
    var n := |s| - 1;
    if i < n {
      assert t[..n] == s[..n][i := s[i] + 1];
      SumIncrement(s[..n], i);
    } else {
      assert t[..n] == s[..n];
    }
  }

  /** A sequence of zeros sums to zero. */
  lemma {:induction false} SumZeros(n: nat)
    ensures Sum(seq(n, _ => 0)) == 0
  {
    if n > 0 {
      assert seq(n, _ => 0)[..n - 1] == seq(n - 1, _ => 0);
      SumZeros(n - 1);
    }
  }

  /** Distinctness stated through multiplicities: no element is counted twice. */
  lemma {:induction false} DistinctMultiplicity<T>(s: seq<T>)
    ensures Distinct(s) <==> forall x :: multiset(s)[x] <= 1
  {
    if Distinct(s) {
      if |s| > 0 {
        var n := |s| - 1;
        assert s == s[..n] + [s[n]];
        assert Distinct(s[..n]);
        DistinctMultiplicity(s[..n]);
        assert s[n] !in s[..n];
        forall x ensures multiset(s)[x] <= 1 {
          assert multiset(s) == multiset(s[..n]) + multiset{s[n]};
        }
      }
    }
    if forall x :: multiset(s)[x] <= 1 {
      forall i, j | 0 <= i < j < |s| ensures s[i] != s[j] {
        if s[i] == s[j] {
          TwoOccurrences(s, i, j);
        }
      }
    }
  }

  /** Two equal elements at two positions give a multiplicity of at least two. */
  lemma TwoOccurrences<T>(s: seq<T>, i: nat, j: nat)
    requires i < j < |s| && s[i] == s[j]
    ensures multiset(s)[s[i]] >= 2
  {
    assert s == s[..j] + s[j..];
    assert s[i] == s[..j][i];
    assert s[j] == s[j..][0];
    assert multiset(s)[s[i]] == multiset(s[..j])[s[i]] + multiset(s[j..])[s[i]];
  }

  /** A sequence whose multiplicities never exceed two has no symbol three times. */
  lemma MultiplicityAtMostTwice<T>(s: seq<T>)
    requires forall x :: multiset(s)[x] <= 2
    ensures AtMostTwice(s)
  {
    forall i, j, k | 0 <= i < j < k < |s| ensures !(s[i] == s[j] && s[j] == s[k]) {
      if s[i] == s[j] && s[j] == s[k] {
        ThreeOccurrences(s, i, j, k);
      }
    }
  }

  /** Three equal elements at three positions give a multiplicity of at least three. */
  lemma ThreeOccurrences<T>(s: seq<T>, i: nat, j: nat, k: nat)
    requires i < j < k < |s| && s[i] == s[j] && s[j] == s[k]
    ensures multiset(s)[s[i]] >= 3
  {
    var x := s[i];
    assert s == s[..j] + s[j..];
    var r := s[j..];
    assert r == [s[j]] + r[1..];
    assert r[1..][k - j - 1] == s[k];
    assert s[..j][i] == x;
    assert multiset(s)[x] == multiset(s[..j])[x] + multiset(r)[x];
    assert multiset(r)[x] == 1 + multiset(r[1..])[x];
  }

  /** Every element of a distinct sequence contributes one element to its set. */
  lemma {:induction false} DistinctCardinality<T>(s: seq<T>)
    requires Distinct(s)
    ensures |set x | x in s| == |s|
  {
    if |s| > 0 {
      var n := |s| - 1;
      DistinctCardinality(s[..n]);
      assert (set x | x in s) == (set x | x in s[..n]) + {s[n]};
      assert s[n] !in (set x | x in s[..n]);
    }
  }
}

=== FILE: shuffle.dfy ===
/** The Fisher–Yates shuffle of `shuffleArray` (js/game.js:4-11).

    `Math.random` is replaced by an oracle: `draws[i]` is the index
    `Math.floor(Math.random() * (i + 1))` drawn when the loop is at position
    `i`, so it lies in `[0, i]`. Every property below holds for every oracle. */
module Shuffle {
  import opened Seqs

  /** The draws the random source can produce for an array of length `n`.
      Position 0 is never visited by the loop; its entry can only be 0. */
  predicate ValidDraws(draws: seq<nat>, n: nat) {
    |draws| == n && forall i :: 0 <= i < n ==> draws[i] <= i
  }

  /** The destructuring swap `[a[i], a[j]] = [a[j], a[i]]`, also when `i == j`. */
  function Swap<T>(a: seq<T>, i: nat, j: nat): (r: seq<T>)
    requires i < |a| && j < |a|
    ensures |r| == |a| && r[i] == a[j] && r[j] == a[i]
  {
    a[i := a[j]][j := a[i]]
  }

  lemma SwapPermutes<T>(a: seq<T>, i: nat, j: nat)
    requires i < |a| && j < |a|
    ensures multiset(Swap(a, i, j)) == multiset(a)
  {
  }

  /** The loop from position `i` down to 1: swap position `i` with `draws[i]`, then continue at `i - 1`. */
  function ShuffleDown<T>(a: seq<T>, draws: seq<nat>, i: nat): (r: seq<T>)
    requires i < |a| && ValidDraws(draws, |a|)
    ensures |r| == |a|
    decreases i
  {
    if i == 0 then a
    else ShuffleDown(Swap(a, i, draws[i]), draws, i - 1)
  }

  /** Every step is a swap, so the loop only reorders. */
  lemma {:induction false} ShuffleDownPermutes<T>(a: seq<T>, draws: seq<nat>, i: nat)
    requires i < |a| && ValidDraws(draws, |a|)
    ensures multiset(ShuffleDown(a, draws, i)) == multiset(a)
    decreases i
  {
    if i > 0 {
      SwapPermutes(a, i, draws[i]);
      ShuffleDownPermutes(Swap(a, i, draws[i]), draws, i - 1);
    }
  }

  /** The shuffled copy `shuffleArray` returns for the oracle `draws`. */
  function Shuffled<T>(arr: seq<T>, draws: seq<nat>): (r: seq<T>)
    requires ValidDraws(draws, |arr|)
    ensures |r| == |arr| && multiset(r) == multiset(arr)
  {
    if |arr| == 0 then arr
    else
      ShuffleDownPermutes(arr, draws, |arr| - 1);
      ShuffleDown(arr, draws, |arr| - 1)
  }

  /** `shuffleArray` as written: copy, then swap from the last position down to 1.
      The argument is a value, so the caller's sequence is left as it was. */
  method ShuffleArray<T>(arr: seq<T>, draws: seq<nat>) returns (a: seq<T>)
    requires ValidDraws(draws, |arr|)
    ensures a == Shuffled(arr, draws)
    ensures |a| == |arr| && multiset(a) == multiset(arr)
  {
    a := arr;
    var i: int := |a| - 1;
    while i > 0
      invariant -1 <= i < |a| && |a| == |arr|
      invariant i >= 0 ==> ShuffleDown(a, draws, i) == Shuffled(arr, draws)
      invariant i == -1 ==> a == arr && |arr| == 0
      decreases i
    {
      var j := draws[i];
      a := Swap(a, i, j);
      i := i - 1;
    }
  }

  /** Shuffling is a permutation, so it keeps a sequence free of repeats. */
  lemma ShuffledDistinct<T>(arr: seq<T>, draws: seq<nat>)
    requires ValidDraws(draws, |arr|)
    requires Distinct(arr)
    ensures Distinct(Shuffled(arr, draws))
  {
    DistinctMultiplicity(arr);
    DistinctMultiplicity(Shuffled(arr, draws));
  }

  /** Positions above `i` are never touched by the rest of the loop. */
  lemma {:induction false} ShuffleDownKeepsTail<T>(a: seq<T>, draws: seq<nat>, i: nat, k: nat)
    requires i < k < |a| && ValidDraws(draws, |a|)
    ensures ShuffleDown(a, draws, i)[k] == a[k]
    decreases i
  {
    if i > 0 {
      ShuffleDownKeepsTail(Swap(a, i, draws[i]), draws, i - 1, k);
    }
  }

  /** Two oracles that differ at some visited position place different elements
      at some position of a sequence without repeats. */
  lemma {:induction false} ShuffleDownInjective<T>(a: seq<T>, d1: seq<nat>, d2: seq<nat>, i: nat, p: nat)
    returns (k: nat)
    requires i < |a| && ValidDraws(d1, |a|) && ValidDraws(d2, |a|) && Distinct(a)
    requires 0 < p <= i && d1[p] != d2[p]
    ensures k < |a| && ShuffleDown(a, d1, i)[k] != ShuffleDown(a, d2, i)[k]
    decreases i
  {
    if d1[i] != d2[i] {
      TopDrawDecides(a, d1, d2, i);
      k := i;
    } else {
      var b := Swap(a, i, d1[i]);
      assert ShuffleDown(a, d1, i) == ShuffleDown(b, d1, i - 1);
      assert ShuffleDown(a, d2, i) == ShuffleDown(b, d2, i - 1);
      SwapDistinct(a, i, d1[i]);
      k := ShuffleDownInjective(b, d1, d2, i - 1, p);
    }
  }

  /** The element the draw at position `i` brings there stays there. */
  lemma TopDrawDecides<T>(a: seq<T>, d1: seq<nat>, d2: seq<nat>, i: nat)
    requires 0 < i < |a| && ValidDraws(d1, |a|) && ValidDraws(d2, |a|) && Distinct(a)
    requires d1[i] != d2[i]
    ensures ShuffleDown(a, d1, i)[i] != ShuffleDown(a, d2, i)[i]
  {
    var b1 := Swap(a, i, d1[i]);
    var b2 := Swap(a, i, d2[i]);
    ShuffleDownKeepsTail(b1, d1, i - 1, i);
    ShuffleDownKeepsTail(b2, d2, i - 1, i);
    assert b1[i] == a[d1[i]];
  }

  lemma SwapDistinct<T>(a: seq<T>, i: nat, j: nat)
    requires i < |a| && j < |a| && Distinct(a)
    ensures Distinct(Swap(a, i, j))
  {
    SwapPermutes(a, i, j);
    DistinctMultiplicity(a);
    DistinctMultiplicity(Swap(a, i, j));
  }

  /** `shuffleArray` of a repeat-free sequence: different oracles give different results. */
  lemma ShuffledInjective<T>(arr: seq<T>, d1: seq<nat>, d2: seq<nat>)
    requires ValidDraws(d1, |arr|) && ValidDraws(d2, |arr|) && Distinct(arr)
    requires d1 != d2
    ensures Shuffled(arr, d1) != Shuffled(arr, d2)
  {
    assert |d1| == |d2|;
    var p :| 0 <= p < |arr| && d1[p] != d2[p];
    assert p != 0;
    assert Shuffled(arr, d1) == ShuffleDown(arr, d1, |arr| - 1);
    assert Shuffled(arr, d2) == ShuffleDown(arr, d2, |arr| - 1);
    var k := ShuffleDownInjective(arr, d1, d2, |arr| - 1, p);
    assert Shuffled(arr, d1)[k] != Shuffled(arr, d2)[k];
  }
}

=== FILE: text.dfy ===
/** `toTitleCase` (js/game.js:14-16) over ASCII text: trim, lower-case, split
    on runs of whitespace dropping empty pieces, upper-case the first letter
    of every word, and join the words with single spaces.

    Characters outside ASCII are left as they are by both case mappings, and
    only the six ASCII whitespace characters count as whitespace. */
module Text {

  /** The ASCII characters `\s` matches and `trim` removes: space, and tab
      through carriage return (code points 9 to 13). */
  predicate IsSpace(c: char) {
    c == ' ' || 9 <= c as int <= 13
  }

  predicate IsUpper(c: char) { 'A' <= c <= 'Z' }

  predicate IsLower(c: char) { 'a' <= c <= 'z' }

  function ToLowerChar(c: char): (d: char)
    ensures !IsUpper(d)
    ensures IsSpace(d) <==> IsSpace(c)
    ensures IsUpper(c) ==> IsLower(d) && d as int - 'a' as int == c as int - 'A' as int
    ensures !IsUpper(c) ==> d == c
  {
    if IsUpper(c) then (c as int + 32) as char else c
  }

  function ToUpperChar(c: char): (d: char)
    ensures !IsLower(d)
    ensures IsSpace(d) <==> IsSpace(c)
    ensures IsUpper(c) || IsLower(c) <==> IsUpper(d)
    ensures IsLower(c) ==> d as int - 'A' as int == c as int - 'a' as int
    ensures !IsLower(c) ==> d == c
  {
    if IsLower(c) then (c as int - 32) as char else c
  }

  /** `toLowerCase`. */
  function Lower(s: string): (r: string)
    ensures |r| == |s|
    ensures forall i :: 0 <= i < |s| ==> r[i] == ToLowerChar(s[i])
  {
    seq(|s|, i requires 0 <= i < |s| => ToLowerChar(s[i]))
  }

  /** No whitespace at either end. */
  predicate Trimmed(s: string) {
    |s| == 0 || (!IsSpace(s[0]) && !IsSpace(s[|s| - 1]))
  }

  function TrimStart(s: string): (r: string)
    ensures |r| <= |s| && r == s[|s| - |r|..]
    ensures |r| == 0 || !IsSpace(r[0])
    ensures forall i :: 0 <= i < |s| - |r| ==> IsSpace(s[i])
  {
    if |s| > 0 && IsSpace(s[0]) then TrimStart(s[1..]) else s
  }

  function TrimEnd(s: string): (r: string)
    ensures |r| <= |s| && r == s[..|r|]
    ensures |r| == 0 || !IsSpace(r[|r| - 1])
    ensures forall i :: |r| <= i < |s| ==> IsSpace(s[i])
  {
    if |s| > 0 && IsSpace(s[|s| - 1]) then TrimEnd(s[..|s| - 1]) else s
  }

  /** `r` is `s` with the whitespace margins of lengths `a` (before) and
      `|s| - a - |r|` (after) cut off. */
  predicate MiddleOf(s: string, r: string, a: nat) {
    && a + |r| <= |s| && r == s[a..a + |r|]
    && (forall i :: 0 <= i < a ==> IsSpace(s[i]))
    && (forall i :: a + |r| <= i < |s| ==> IsSpace(s[i]))
  }

  /** `trim`: the text between the leading and the trailing whitespace. The
      result is empty exactly when the text is whitespace only. */
  function Trim(s: string): (r: string)
    ensures Trimmed(r)
    ensures exists a :: MiddleOf(s, r, a)
    ensures r == "" <==> forall i :: 0 <= i < |s| ==> IsSpace(s[i])
    ensures Trimmed(s) ==> r == s
  {
    var t := TrimStart(s);
    var r := TrimEnd(t);
    TrimMiddle(s, t, r);
    r
  }

  /** The two halves of `trim` put together: `t` is `s` without its leading
      whitespace and `r` is `t` without its trailing whitespace. */
  lemma TrimMiddle(s: string, t: string, r: string)
    requires |t| <= |s| && t == s[|s| - |t|..]
    requires (|t| == 0 || !IsSpace(t[0])) && forall i :: 0 <= i < |s| - |t| ==> IsSpace(s[i])
    requires |r| <= |t| && r == t[..|r|]
    requires (|r| == 0 || !IsSpace(r[|r| - 1])) && forall i :: |r| <= i < |t| ==> IsSpace(t[i])
    ensures Trimmed(r) && MiddleOf(s, r, |s| - |t|)
    ensures r == "" <==> forall i :: 0 <= i < |s| ==> IsSpace(s[i])
  {
    var a := |s| - |t|;
    assert r == s[a..a + |r|];
    forall i | a + |r| <= i < |s| ensures IsSpace(s[i]) {
      assert s[i] == t[i - a];
    }
    assert |r| == 0 || r[0] == t[0];
    if r != "" {
      assert s[a] == t[0];
    }
  }

  /** A word as `split(/\s+/)` yields it after `filter(Boolean)`. */
  predicate IsWord(w: string) {
    |w| > 0 && forall i :: 0 <= i < |w| ==> !IsSpace(w[i])
  }

  /** Length of the leading run of non-whitespace characters. */
  function WordLength(s: string): (n: nat)
    ensures n <= |s|
    ensures forall i :: 0 <= i < n ==> !IsSpace(s[i])
    ensures n < |s| ==> IsSpace(s[n])
  {
    if |s| == 0 || IsSpace(s[0]) then 0 else 1 + WordLength(s[1..])
  }

  /** `split(/\s+/).filter(Boolean)`: the maximal whitespace-free pieces, in order. */
  function Words(s: string): (ws: seq<string>)
    ensures forall k :: 0 <= k < |ws| ==> IsWord(ws[k])
    decreases |s|
  {
    if |s| == 0 then []
    else if IsSpace(s[0]) then Words(s[1..])
    else
      var n := WordLength(s);
      [s[..n]] + Words(s[n..])
  }

  /** `join(' ')`. */
  function Join(ws: seq<string>): (r: string)
    ensures |ws| == 0 ==> r == ""
    ensures |ws| > 0 ==> |r| >= |ws[0]|
  {
    if |ws| == 0 then ""
    else if |ws| == 1 then ws[0]
    else ws[0] + " " + Join(ws[1..])
  }

  /** `w.charAt(0).toUpperCase() + w.slice(1)`. */
  function Capitalize(w: string): (r: string)
    ensures |r| == |w|
    ensures |w| > 0 ==> r[0] == ToUpperChar(w[0]) && r[1..] == w[1..]
  {
    if |w| == 0 then "" else [ToUpperChar(w[0])] + w[1..]
  }

  function CapitalizeAll(ws: seq<string>): (cs: seq<string>)
    ensures |cs| == |ws|
    ensures forall k :: 0 <= k < |ws| ==> cs[k] == Capitalize(ws[k])
  {
    seq(|ws|, k requires 0 <= k < |ws| => Capitalize(ws[k]))
  }

  /** `toTitleCase`. */
  function TitleCase(s: string): (t: string) {
    Join(CapitalizeAll(Words(Lower(Trim(s)))))
  }

  /** Text in the form `toTitleCase` produces: words separated by single spaces. */
  predicate SingleSpaced(s: string) {
    && Trimmed(s)
    && (forall i :: 0 <= i < |s| && IsSpace(s[i]) ==> s[i] == ' ')
    && (forall i :: 0 <= i < |s| - 1 ==> !(IsSpace(s[i]) && IsSpace(s[i + 1])))
  }

  /** Joining words gives single-spaced text. */
  lemma {:induction false} JoinSingleSpaced(ws: seq<string>)
    requires forall k :: 0 <= k < |ws| ==> IsWord(ws[k])
    ensures SingleSpaced(Join(ws))
    ensures |ws| > 0 ==> Join(ws)[..|ws[0]|] == ws[0]
  {
    if |ws| > 1 {
      JoinSingleSpaced(ws[1..]);
      var w := ws[0];
      var rest := Join(ws[1..]);
      var r := Join(ws);
      assert r == w + " " + rest;
      assert IsWord(ws[1]);
      assert rest[0] == rest[..|ws[1]|][0] == ws[1][0];
      forall i | 0 <= i < |r| && IsSpace(r[i]) ensures r[i] == ' ' {
        if i > |w| {
          assert r[i] == rest[i - |w| - 1];
        }
      }
      forall i | 0 <= i < |r| - 1 ensures !(IsSpace(r[i]) && IsSpace(r[i + 1])) {
        if i > |w| {
          assert r[i] == rest[i - |w| - 1];
          assert r[i + 1] == rest[i - |w|];
        }
      }
      assert r[|r| - 1] == rest[|rest| - 1];
    }
  }

  /** Every result of `toTitleCase` is single-spaced: no whitespace at the ends,
      no tabs or newlines, no runs of spaces. */
  lemma TitleCaseSingleSpaced(s: string)
    ensures SingleSpaced(TitleCase(s))
  {
    var ws := CapitalizeAll(Words(Lower(Trim(s))));
    forall k | 0 <= k < |ws| ensures IsWord(ws[k]) {
      CapitalizePreservesWord(Words(Lower(Trim(s)))[k]);
    }
    JoinSingleSpaced(ws);
  }

  lemma CapitalizePreservesWord(w: string)
    requires IsWord(w)
    ensures IsWord(Capitalize(w))
  {
    var c := Capitalize(w);
    forall i | 0 <= i < |c| ensures !IsSpace(c[i]) {
      if i > 0 {
        assert c[i] == c[1..][i - 1] == w[1..][i - 1];
      }
    }
  }

  /** The leading word of a word followed by a space and anything else. */
  lemma WordLengthOfPrefix(w: string, rest: string)
    requires IsWord(w)
    requires |rest| == 0 || IsSpace(rest[0])
    ensures WordLength(w + rest) == |w|
  {
    var s := w + rest;
    assert forall i :: 0 <= i < |w| ==> s[i] == w[i];
    assert |w| < |s| ==> s[|w|] == rest[0];
  }

  /** Splitting joined words gives the words back. */
  lemma {:induction false} WordsOfJoin(ws: seq<string>)
    requires forall k :: 0 <= k < |ws| ==> IsWord(ws[k])
    ensures Words(Join(ws)) == ws
  {
    if |ws| == 1 {
      WordsOfWordFirst(ws[0], "");
      assert ws[0] + "" == ws[0];
    } else if |ws| > 1 {
      var rest := Join(ws[1..]);
      assert Join(ws) == ws[0] + (" " + rest);
      WordsOfWordFirst(ws[0], " " + rest);
      WordsAfterSpaces(" ", rest);
      WordsOfJoin(ws[1..]);
    }
  }

  /** Lower-casing commutes with joining. */
  lemma {:induction false} LowerJoin(ws: seq<string>)
    ensures Lower(Join(ws)) == Join(seq(|ws|, k requires 0 <= k < |ws| => Lower(ws[k])))
  {
    var ls := seq(|ws|, k requires 0 <= k < |ws| => Lower(ws[k]));
    if |ws| > 1 {
      LowerJoin(ws[1..]);
      assert ls[1..] == seq(|ws| - 1, k requires 0 <= k < |ws| - 1 => Lower(ws[1..][k]));
      assert Lower(ws[0] + " " + Join(ws[1..])) == Lower(ws[0]) + " " + Lower(Join(ws[1..]));
    }
  }

  /** A word without upper-case letters, capitalized and lowered again. */
  lemma LowerCapitalize(w: string)
    requires forall i :: 0 <= i < |w| ==> !IsUpper(w[i])
    ensures Lower(Capitalize(w)) == w
  {
    var c := Capitalize(w);
    forall i | 0 <= i < |w| ensures ToLowerChar(c[i]) == w[i] {
      if i > 0 {
        assert c[i] == c[1..][i - 1] == w[1..][i - 1];
      }
    }
  }

  /** The words of lower-cased text contain no upper-case letters. */
  lemma {:induction false} WordsOfLower(s: string)
    requires forall i :: 0 <= i < |s| ==> !IsUpper(s[i])
    ensures forall k, i :: 0 <= k < |Words(s)| && 0 <= i < |Words(s)[k]| ==> !IsUpper(Words(s)[k][i])
    decreases |s|
  {
    if |s| > 0 {
      if IsSpace(s[0]) {
        WordsOfLower(s[1..]);
      } else {
        var n := WordLength(s);
        WordsOfLower(s[n..]);
        var ws := Words(s);
        assert ws == [s[..n]] + Words(s[n..]);
        forall k, i | 0 <= k < |ws| && 0 <= i < |ws[k]| ensures !IsUpper(ws[k][i]) {
          if k > 0 {
            assert ws[k] == Words(s[n..])[k - 1];
          }
        }
      }
    }
  }

  /** Applying `toTitleCase` twice is the same as applying it once, so the
      display code may re-apply it to names that are already title-cased. */
  lemma TitleCaseIdempotent(s: string)
    ensures TitleCase(TitleCase(s)) == TitleCase(s)
  {
    var low := Lower(Trim(s));
    var ws := Words(low);
    var cs := CapitalizeAll(ws);
    var t := Join(cs);
    WordsOfLower(low);
    forall k | 0 <= k < |cs| ensures IsWord(cs[k]) {
      CapitalizePreservesWord(ws[k]);
    }
    JoinSingleSpaced(cs);
    assert Trim(t) == t;
    LowerTitleWords(ws);
    WordsOfJoin(ws);
  }

  /** Lower-casing capitalized lower-case words gives the words back. */
  lemma LowerTitleWords(ws: seq<string>)
    requires forall k, i :: 0 <= k < |ws| && 0 <= i < |ws[k]| ==> !IsUpper(ws[k][i])
    ensures Lower(Join(CapitalizeAll(ws))) == Join(ws)
  {
    var cs := CapitalizeAll(ws);
    LowerJoin(cs);
    var ls := seq(|cs|, k requires 0 <= k < |cs| => Lower(cs[k]));
    assert ls == ws by {
      forall k | 0 <= k < |cs| ensures ls[k] == ws[k] {
        LowerCapitalize(ws[k]);
      }
    }
  }

  /** Leading whitespace does not change the words. */
  lemma {:induction false} WordsAfterSpaces(sp: string, rest: string)
    requires forall i :: 0 <= i < |sp| ==> IsSpace(sp[i])
    ensures Words(sp + rest) == Words(rest)
  {
    if |sp| > 0 {
      assert (sp + rest)[1..] == sp[1..] + rest;
      WordsAfterSpaces(sp[1..], rest);
    } else {
      assert sp + rest == rest;
    }
  }

  /** A word at the front, ended by whitespace or by the end of the text, is the first word. */
  lemma WordsOfWordFirst(w: string, rest: string)
    requires IsWord(w) && (|rest| == 0 || IsSpace(rest[0]))
    ensures Words(w + rest) == [w] + Words(rest)
  {
    WordLengthOfPrefix(w, rest);
    assert (w + rest)[..|w|] == w;
    assert (w + rest)[|w|..] == rest;
  }

  /** Lower-casing works character by character. */
  lemma LowerConcat(a: string, b: string)
    ensures Lower(a + b) == Lower(a) + Lower(b)
  {
  }

  lemma LowerWord(w: string)
    requires IsWord(w)
    ensures IsWord(Lower(w))
  {
  }

  /** Two words separated by any non-empty whitespace. */
  lemma WordsOfTwo(x: string, sp: string, y: string)
    requires IsWord(x) && IsWord(y)
    requires |sp| > 0 && forall i :: 0 <= i < |sp| ==> IsSpace(sp[i])
    ensures Words(x + sp + y) == [x, y]
  {
    assert x + sp + y == x + (sp + y);
    WordsOfWordFirst(x, sp + y);
    WordsAfterSpaces(sp, y);
    WordsOfWordFirst(y, "");
    assert y + "" == y;
  }

  /** `toTitleCase` collapses the whitespace between two words to one space,
      whatever that whitespace was. */
  lemma TitleCaseCollapsesSpacing(x: string, sp: string, y: string)
    requires IsWord(x) && IsWord(y)
    requires |sp| > 0 && forall i :: 0 <= i < |sp| ==> IsSpace(sp[i])
    ensures TitleCase(x + sp + y) == TitleCase(x + " " + y)
  {
    LowerWord(x);
    LowerWord(y);
    LowerCollapse(x, sp, y);
    LowerCollapse(x, " ", y);
  }

  lemma LowerCollapse(x: string, sp: string, y: string)
    requires IsWord(x) && IsWord(y) && IsWord(Lower(x)) && IsWord(Lower(y))
    requires |sp| > 0 && forall i :: 0 <= i < |sp| ==> IsSpace(sp[i])
    ensures Words(Lower(Trim(x + sp + y))) == [Lower(x), Lower(y)]
  {
    var s := x + sp + y;
    assert Trimmed(s) by {
      assert s[0] == x[0] && s[|s| - 1] == y[|y| - 1];
    }
    var lsp := Lower(sp);
    assert forall i :: 0 <= i < |lsp| ==> IsSpace(lsp[i]);
    assert Lower(s) == Lower(x) + lsp + Lower(y) by {
      LowerConcat(x, sp);
      LowerConcat(x + sp, y);
    }
    WordsOfTwo(Lower(x), lsp, Lower(y));
  }

  /** Lower-casing keeps whitespace where it was, so it commutes with `trim`. */
  lemma LowerTrim(s: string)
    ensures Lower(Trim(s)) == Trim(Lower(s))
  {
    LowerTrimStart(s);
    LowerTrimEnd(TrimStart(s));
  }

  lemma {:induction false} LowerTrimStart(s: string)
    ensures Lower(TrimStart(s)) == TrimStart(Lower(s))
    decreases |s|
  {
    if |s| > 0 && IsSpace(s[0]) {
      assert Lower(s)[1..] == Lower(s[1..]);
      LowerTrimStart(s[1..]);
    }
  }

  lemma {:induction false} LowerTrimEnd(s: string)
    ensures Lower(TrimEnd(s)) == TrimEnd(Lower(s))
    decreases |s|
  {
    if |s| > 0 && IsSpace(s[|s| - 1]) {
      assert Lower(s)[..|s| - 1] == Lower(s[..|s| - 1]);
      LowerTrimEnd(s[..|s| - 1]);
    }
  }

  /** Names that agree once lower-cased agree once title-cased: the title case
      of a name is determined by its lower-case form. */
  lemma TitleCaseOfLower(a: string, b: string)
    requires Lower(a) == Lower(b)
    ensures TitleCase(a) == TitleCase(b)
  {
    LowerTrim(a);
    LowerTrim(b);
  }

  // ------------------------------------------------ the words of a title

  function LowerEach(ws: seq<string>): (ls: seq<string>)
    ensures |ls| == |ws|
    ensures forall k :: 0 <= k < |ws| ==> ls[k] == Lower(ws[k])
  {
    seq(|ws|, k requires 0 <= k < |ws| => Lower(ws[k]))
  }

  /** Trailing whitespace does not change the words. */
  lemma {:induction false} WordsBeforeSpaces(m: string, sp: string)
    requires forall i :: 0 <= i < |sp| ==> IsSpace(sp[i])
    ensures Words(m + sp) == Words(m)
    decreases |m|
  {
    if |m| == 0 {
      assert m + sp == sp + "";
      WordsAfterSpaces(sp, "");
    } else if IsSpace(m[0]) {
      assert (m + sp)[1..] == m[1..] + sp;
      WordsBeforeSpaces(m[1..], sp);
    } else {
      var n := WordLength(m);
      var rest := m[n..] + sp;
      assert m + sp == m[..n] + rest;
      WordsOfWordFirst(m[..n], rest);
      WordsBeforeSpaces(m[n..], sp);
    }
  }

  /** `trim` does not change the words. */
  lemma WordsOfTrim(s: string)
    ensures Words(Trim(s)) == Words(s)
  {
    var r := Trim(s);
    var a :| MiddleOf(s, r, a);
    WordsOfMiddle(s, r, a);
  }

  lemma WordsOfMiddle(s: string, r: string, a: nat)
    requires MiddleOf(s, r, a)
    ensures Words(r) == Words(s)
  {
    var pre, post := s[..a], s[a + |r|..];
    assert s == pre + (r + post);
    WordsAfterSpaces(pre, r + post);
    WordsBeforeSpaces(r, post);
  }

  /** Lower-casing keeps the word boundaries. */
  lemma WordLengthOfLower(s: string)
    ensures WordLength(Lower(s)) == WordLength(s)
  {
  }

  /** The words of lower-cased text are the lower-cased words. */
  lemma {:induction false} WordsOfLowerText(s: string)
    ensures Words(Lower(s)) == LowerEach(Words(s))
    decreases |s|
  {
    if |s| > 0 {
      var l := Lower(s);
      if IsSpace(s[0]) {
        LowerDrop(s, 1);
        WordsOfLowerText(s[1..]);
      } else {
        var n := WordLength(s);
        WordLengthOfLower(s);
        LowerTake(s, n);
        LowerDrop(s, n);
        WordsOfLowerText(s[n..]);
        assert Words(l) == [Lower(s[..n])] + Words(Lower(s[n..]));
        assert Words(s) == [s[..n]] + Words(s[n..]);
        LowerEachCons(s[..n], Words(s[n..]));
      }
    }
  }

  lemma LowerTake(s: string, n: nat)
    requires n <= |s|
    ensures Lower(s)[..n] == Lower(s[..n])
  {
  }

  lemma LowerDrop(s: string, n: nat)
    requires n <= |s|
    ensures Lower(s)[n..] == Lower(s[n..])
  {
  }

  lemma LowerEachCons(w: string, ws: seq<string>)
    ensures LowerEach([w] + ws) == [Lower(w)] + LowerEach(ws)
  {
  }

  /** The words of `toTitleCase(s)` are the words of `s`, each lower-cased and
      then given an upper-case first letter: every word starts with a
      character that is not a lower-case letter, and has no upper-case letter
      after it. */
  lemma TitleCaseWords(s: string)
    ensures var ws := Words(TitleCase(s));
      && |ws| == |Words(s)|
      && (forall k :: 0 <= k < |ws| ==> ws[k] == Capitalize(Lower(Words(s)[k])))
      && (forall k :: 0 <= k < |ws| ==> !IsLower(ws[k][0]))
      && (forall k, j :: 0 <= k < |ws| && 1 <= j < |ws[k]| ==> !IsUpper(ws[k][j]))
  {
    var ws := Words(s);
    WordsOfTitle(s);
    forall k | 0 <= k < |ws| {
      CapitalizedLowerShape(ws[k]);
    }
  }

  lemma WordsOfTitle(s: string)
    ensures Words(TitleCase(s)) == CapitalizeAll(LowerEach(Words(s)))
  {
    var vs := Words(Lower(Trim(s)));
    var cs := CapitalizeAll(vs);
    forall k | 0 <= k < |cs| ensures IsWord(cs[k]) {
      CapitalizePreservesWord(vs[k]);
    }
    WordsOfJoin(cs);
    WordsOfTrim(s);
    WordsOfLowerText(Trim(s));
  }

  /** A lower-cased word given a capital: no lower-case letter first, no
      upper-case letter after. */
  lemma CapitalizedLowerShape(w: string)
    ensures var c := Capitalize(Lower(w));
      && (|c| > 0 ==> !IsLower(c[0]))
      && (forall j :: 1 <= j < |c| ==> !IsUpper(c[j]))
  {
    var l := Lower(w);
    var c := Capitalize(l);
    forall j | 1 <= j < |c| ensures !IsUpper(c[j]) {
      assert c[j] == c[1..][j - 1] == l[1..][j - 1];
    }
  }

}

=== FILE: winner.dfy ===
/** Winner selection of `showWinner` (js/game.js:422-443): the players whose
    score equals the highest score, in ascending order; one of them is a sole
    win, several are a tie among exactly those players. */
module Winner {
  import opened Seqs

  /** The highest score, `Math.max(...scores)`. */
  function MaxScore(scores: seq<int>): (m: int)
    requires |scores| > 0
    ensures forall i :: 0 <= i < |scores| ==> scores[i] <= m
    ensures exists i :: 0 <= i < |scores| && scores[i] == m
  {
    if |scores| == 1 then scores[0]
    else
      var m := MaxScore(scores[1..]);
      assert forall i :: 1 <= i < |scores| ==> scores[i] == scores[1..][i - 1];
      if scores[0] >= m then scores[0] else m
  }

  /** Indices from `from` on whose score is `m`, ascending. */
  function IndicesWith(scores: seq<int>, m: int, from: nat): (w: seq<nat>)
    requires from <= |scores|
    ensures forall k :: 0 <= k < |w| ==> from <= w[k] < |scores| && scores[w[k]] == m
    ensures forall i :: from <= i < |scores| && scores[i] == m ==> i in w
    ensures forall k, l :: 0 <= k < l < |w| ==> w[k] < w[l]
    decreases |scores| - from
  {
    if from == |scores| then []
    else if scores[from] == m then [from] + IndicesWith(scores, m, from + 1)
    else IndicesWith(scores, m, from + 1)
  }

  /** `scoresArr.map((s, i) => ({s, i})).filter(x => x.s === max).map(x => x.i)`.
      With no scores `Math.max()` is -Infinity, which no score equals. */
  function Winners(scores: seq<int>): (w: seq<nat>)
    ensures forall i: nat :: i in w <==> i < |scores| && scores[i] == MaxScore(scores)
    ensures forall k, l :: 0 <= k < l < |w| ==> w[k] < w[l]
    ensures |w| > 0 <==> |scores| > 0
  {
    if |scores| == 0 then [] else IndicesWith(scores, MaxScore(scores), 0)
  }

  datatype Verdict = Sole(player: nat) | Tie(players: seq<nat>)

  /** The title `showWinner` writes: "<name> wins!" for one winner, a tie otherwise. */
  function Decide(scores: seq<int>): (v: Verdict)
    ensures v.Sole? <==> |Winners(scores)| == 1
    ensures v.Sole? ==> SoleLeader(scores, v.player)
    ensures v.Tie? ==> v.players == Winners(scores)
  {
    var w := Winners(scores);
    if |w| == 1 then
      assert w[0] in w;
      assert SoleLeader(scores, w[0]) by {
        forall i | 0 <= i < |scores| && i != w[0] ensures scores[i] < scores[w[0]] {
          assert i !in w;
        }
      }
      Sole(w[0])
    else Tie(w)
  }

  /** Player `p` has strictly more than every other player. */
  predicate SoleLeader(scores: seq<int>, p: nat) {
    p < |scores| && forall i :: 0 <= i < |scores| && i != p ==> scores[i] < scores[p]
  }

  /** A win is sole exactly when one player alone holds the highest score. */
  lemma SoleWinIffUniqueMax(scores: seq<int>)
    ensures |Winners(scores)| == 1 <==> exists p: nat :: SoleLeader(scores, p)
  {
    var w := Winners(scores);
    if |w| == 1 {
      var p := w[0];
      assert p in w;
      forall i | 0 <= i < |scores| && i != p ensures scores[i] < scores[p] {
        assert i !in w;
      }
      assert SoleLeader(scores, p);
    }
    if p: nat :| SoleLeader(scores, p) {
      var m := MaxScore(scores);
      assert scores[p] == m;
      assert p in w;
      assert forall k :: 0 <= k < |w| ==> w[k] == p by {
        forall k | 0 <= k < |w| ensures w[k] == p {
          assert w[k] in w;
        }
      }
      SingleValueAscending(w, p);
    }
  }

  lemma SingleValueAscending(w: seq<nat>, p: nat)
    requires forall k, l :: 0 <= k < l < |w| ==> w[k] < w[l]
    requires forall k :: 0 <= k < |w| ==> w[k] == p
    ensures |w| <= 1
  {
    DistinctCardinality(w);
    var s := set x | x in w;
    assert s <= {p};
    assert s == {} || s == {p};
  }

  /** The examples of a three-player round: a tie between the first and the
      third player, and a sole win for the first. */
  lemma WinnerExamples()
    ensures Winners([3, 1, 3]) == [0, 2]
    ensures Decide([5, 2, 1]) == Sole(0)
  {
    assert MaxScore([3, 1, 3]) == 3;
    assert MaxScore([5, 2, 1]) == 5;
  }
}
